=== FILE: README.md ===
# neo_rtc signalling core, modelled in Dafny

This project models the client side of the neo_rtc signalling protocol. The
Android application exchanges session descriptions and ICE candidates with a
peer through a WebSocket room server. Two classes make up that core:

- `WebSocketChannelClient` is the transport state machine. Its states are NEW,
  CONNECTED, REGISTERED, CLOSED and ERROR. It keeps a backlog of frames that
  were sent before registration and flushes it, in order, right after the
  register frame. Its close and error notifications are guarded so that each
  fires once per entry into CLOSED or ERROR.
- `WebSocketRTCClient` is the room session. It holds the room state
  (NEW, CONNECTED, CLOSED, ERROR), the member roster, the active remote id and
  the ICE server list. It builds the outbound offer, answer, candidate and
  removal frames, and dispatches inbound frames (`ice`, `remove-candidates`,
  `answer`, `offer`, `leave`, `loginack`, `browser`, and the error cases) to the
  signalling listener.

Every public method, and the body of every runnable the source posts to its
serial executor, is a pure function from a client to a `Step`: the next
client and the ordered list of what the call emitted. Emissions are socket
actions, listener callbacks, or error tasks posted for later. A run of events
(`Channel.Run`, `Session.Run`) executes the posted bodies one after another,
as the single-threaded executor does. `reportError` in both classes only
posts a task. Its effect is the separate transition `Channel.ReportError` /
`Session.ReportError`, which moves to ERROR and notifies the listener only on
the way in.

Files, in dependency order:

- `wrappers.dfy`: `Option` and `Result`.
- `seqs.dfy`: the sequence identities and the generic count (`Count`, with
  its append, none and singleton lemmas) that the trace lemmas use.
- `json.dfy`: the part of org.json the code calls.
  - A field that carries JSON text ("msg", "members") is represented by the
    value it parses to.
  - `getInt` keeps the low 32 bits.
- `candidates.dfy`: the `toJsonCandidate` / `toJavaCandidate` codec and its
  round trips.
- `frames.dfy`: outbound frames and the JSON objects built for them.
  - Also contains the removal object as the source writes it, and an assumed
    server relay: `toId` is replaced by `from` (see Left out).
- `channel.dfy`, `channel_traces.dfy`: `WebSocketChannelClient` and its
  properties over runs.
- `session.dfy`, `session_traces.dfy`: `WebSocketRTCClient`, the inbound
  dispatcher against the outbound builders, the login-ack and first-in rules,
  and the connect-to-login scenarios.
- `findings.dfy`: the two discrepancies listed under Findings.

Behaviours of the code worth knowing, which the model reproduces:

- `onWebSocketClose` only forwards `onChannelClose`. It leaves the room state
  as it was; it does not set it to CLOSED.
- The `onOpen` task sets CONNECTED whatever the state was, including CLOSED
  and ERROR. It then registers, so ERROR and CLOSED are not terminal for the
  channel.
- A second inbound offer is recorded in the roster but is not forwarded. It
  does not close anything. The listener is told the channel closed from
  `sendOfferSdp`, when the roster has more than one member. The socket itself
  stays open: `onChannelClose` is only a listener callback.
- The backlog is never cleared by `disconnect` or by the close callback. It
  is only flushed by a later registration.
- The room state is not absorbing either: a parsed login-ack sets it to
  CONNECTED from any state, ERROR and CLOSED included, so a later error is
  reported to the listener again. The listener's `onChannelClose` can also
  fire more than once, from every `sendOfferSdp` on a roster of several
  members and from every leave sent by the first member.
- A `connect` in any state but NEW does nothing. A repeated `connect` while
  still NEW opens the socket again, and the state stays NEW until the open
  callback runs.

## Model

Source paths are relative to the repository root.

| member | source | states |
|---|---|---|
| Json.ToInt32 | app/src/main/java/cn/neoclub/app/neo_rtc/WebSocketRTCClient.java:372 | `getInt` on an integral value held as a 32- or 64-bit integer keeps it when it fits in 32 bits and otherwise agrees with it modulo 2^32 |
| Candidates.ToJson | app/src/main/java/cn/neoclub/app/neo_rtc/WebSocketRTCClient.java:361-367 | a candidate is encoded under exactly the keys sdpMLineIndex, sdpMid and candidate |
| Candidates.FromJson | app/src/main/java/cn/neoclub/app/neo_rtc/WebSocketRTCClient.java:370-374 | decoding succeeds exactly when all three fields are present with the right kinds; the fields become the candidate (index cut to 32 bits); a bad sdpMid is reported first, as missing or mistyped |
| Candidates.FromJsonList | app/src/main/java/cn/neoclub/app/neo_rtc/WebSocketRTCClient.java:254-258 | the removal list decodes exactly when every element is an object that decodes, and then element i is candidate i |
| Candidates.RoundTrip | app/src/main/java/cn/neoclub/app/neo_rtc/WebSocketRTCClient.java:361-374 | decoding an encoded candidate gives it back |
| Candidates.DecodeThenEncode | app/src/main/java/cn/neoclub/app/neo_rtc/WebSocketRTCClient.java:361-374 | re-encoding a decoded candidate reproduces the three fields it was read from, when the index fits in an int |
| Candidates.ListRoundTrip | app/src/main/java/cn/neoclub/app/neo_rtc/WebSocketRTCClient.java:213-217 | decoding an encoded candidate list gives back the same list in order |
| Frames.Encode | app/src/main/java/cn/neoclub/app/neo_rtc/WebSocketRTCClient.java:148-203 | every frame carries its command under "cmd"; offers, answers and candidates, and only they, carry their addressee under "toId" |
| Frames.RemovalAsWritten | app/src/main/java/cn/neoclub/app/neo_rtc/WebSocketRTCClient.java:211-217 | the removal object as written has its tag under "type" and no "cmd"; otherwise it is the corrected frame |
| Channel.Init | app/src/main/java/cn/neoclub/app/neo_rtc/WebSocketChannelClient.java:60-67 | a new channel is NEW with an empty backlog and holds the given room and client ids |
| Channel.Connect | app/src/main/java/cn/neoclub/app/neo_rtc/WebSocketChannelClient.java:73-92 | outside NEW nothing happens; the state and backlog never change; the socket is opened unless the URI is bad; an error task is posted exactly when the attempt failed |
| Channel.Send | app/src/main/java/cn/neoclub/app/neo_rtc/WebSocketChannelClient.java:121-139 | NEW and CONNECTED queue the frame at the end of the backlog, REGISTERED transmits it, CLOSED and ERROR drop it |
| Channel.SendAll | app/src/main/java/cn/neoclub/app/neo_rtc/WebSocketChannelClient.java:112-114 | sending a list queues it whole, transmits it in order, or drops it, by the same state rule |
| Channel.Register | app/src/main/java/cn/neoclub/app/neo_rtc/WebSocketChannelClient.java:94-119 | the ids are always recorded; only from CONNECTED the register frame goes out, followed by the backlog in FIFO order, and the client is REGISTERED with an empty backlog |
| Channel.Disconnect | app/src/main/java/cn/neoclub/app/neo_rtc/WebSocketChannelClient.java:141-171 | REGISTERED says bye then closes; CONNECTED and ERROR close; both end CLOSED; NEW and CLOSED are untouched; only the state ever changes |
| Channel.ReportError | app/src/main/java/cn/neoclub/app/neo_rtc/WebSocketChannelClient.java:173-184 | the posted task ends in ERROR and notifies exactly when the client was not in ERROR; nothing but the state changes |
| Channel.OnOpen | app/src/main/java/cn/neoclub/app/neo_rtc/WebSocketChannelClient.java:197-207 | the open task always registers with the stored ids and flushes the backlog after the register frame; only the state and the emptied backlog change |
| Channel.OnClose | app/src/main/java/cn/neoclub/app/neo_rtc/WebSocketChannelClient.java:210-226 | the close task ends CLOSED and notifies exactly when the client was not CLOSED; nothing but the state changes |
| Channel.OnText | app/src/main/java/cn/neoclub/app/neo_rtc/WebSocketChannelClient.java:229-243 | a non-null payload is delivered exactly while CONNECTED or REGISTERED; the client never changes |
| ChannelTraces.ApplyKeepsValid | app/src/main/java/cn/neoclub/app/neo_rtc/WebSocketChannelClient.java:110-115 | no transition leaves a frame queued behind a registered client |
| ChannelTraces.RunKeepsValid | app/src/main/java/cn/neoclub/app/neo_rtc/WebSocketChannelClient.java:94-139 | no run does either |
| ChannelTraces.QueuedFramesFlushInOrder | app/src/main/java/cn/neoclub/app/neo_rtc/WebSocketChannelClient.java:94-139 | frames sent before the socket opens go out once each, in send order, right after the register frame and before everything sent later |
| ChannelTraces.ErrorIsAbsorbing | app/src/main/java/cn/neoclub/app/neo_rtc/WebSocketChannelClient.java:173-184 | short of disconnect, open or close, ERROR stays ERROR, transmits nothing and notifies no error |
| ChannelTraces.ErrorNotifiedAtMostOnce | app/src/main/java/cn/neoclub/app/neo_rtc/WebSocketChannelClient.java:178-181 | short of disconnect, open or close, any run notifies at most one error |
| ChannelTraces.ClosedIsAbsorbing | app/src/main/java/cn/neoclub/app/neo_rtc/WebSocketChannelClient.java:217-225 | short of an open or an error task, CLOSED stays CLOSED, transmits nothing and notifies no close |
| ChannelTraces.CloseNotifiedAtMostOnce | app/src/main/java/cn/neoclub/app/neo_rtc/WebSocketChannelClient.java:220-223 | short of an open or an error task, any run notifies at most one close |
| ChannelTraces.GracefulDisconnectIsQuiet | app/src/main/java/cn/neoclub/app/neo_rtc/WebSocketChannelClient.java:141-153 | disconnecting a registered client sends bye and closes, and the close callback after it stays silent |
| ChannelTraces.ConnectKeepsState | app/src/main/java/cn/neoclub/app/neo_rtc/WebSocketChannelClient.java:73-78 | two connects never change the state, and outside NEW do nothing at all |
| Session.Create | app/src/main/java/cn/neoclub/app/neo_rtc/WebSocketRTCClient.java:72-73 | a session for a room starts NEW with an empty roster, no remote id, the given client id, URL and servers, and a NEW channel with an empty backlog for the same room and client |
| Session.Hand | app/src/main/java/cn/neoclub/app/neo_rtc/WebSocketChannelClient.java:121-139 | handing a frame to the channel changes only the channel: transmitted when registered, queued before, dropped after |
| Session.SendOfferSdp | app/src/main/java/cn/neoclub/app/neo_rtc/WebSocketRTCClient.java:135-162 | outside CONNECTED an error is posted; with one member the offer is addressed to it; with more the listener is told the channel closed; with none nothing happens |
| Session.SendAnswerSdp | app/src/main/java/cn/neoclub/app/neo_rtc/WebSocketRTCClient.java:166-182 | the answer goes to the active remote id in any room state |
| Session.SendLocalIceCandidate | app/src/main/java/cn/neoclub/app/neo_rtc/WebSocketRTCClient.java:186-203 | the candidate goes to the active remote id in any room state |
| Session.SendLocalIceCandidateRemovals | app/src/main/java/cn/neoclub/app/neo_rtc/WebSocketRTCClient.java:207-225 | outside CONNECTED an error is posted; otherwise the unaddressed removal frame is handed to the channel |
| Session.DisconnectFromRoom | app/src/main/java/cn/neoclub/app/neo_rtc/WebSocketRTCClient.java:120-126 | the room is CLOSED whatever it was; roster and remote id stay; the channel says bye and closes, closes, or is left alone by its state; nothing else changes |
| Session.ReportError | app/src/main/java/cn/neoclub/app/neo_rtc/WebSocketRTCClient.java:338-349 | the posted task moves the room to ERROR and notifies exactly when it was not in ERROR |
| Session.OnIce | app/src/main/java/cn/neoclub/app/neo_rtc/WebSocketRTCClient.java:249-252 | the "msg" object is decoded as a candidate for the listener; a missing or mistyped "msg", or a field that does not decode, posts that JSON error; the session is unchanged |
| Session.OnRemoveCandidates | app/src/main/java/cn/neoclub/app/neo_rtc/WebSocketRTCClient.java:253-259 | the "candidates" array is decoded element by element into one removal notification; a missing or mistyped array, or an element that does not decode, posts that JSON error; the session is unchanged |
| Session.OnAnswer | app/src/main/java/cn/neoclub/app/neo_rtc/WebSocketRTCClient.java:260-266 | the "sdp" string of the "msg" object becomes an answer description for the listener; a missing or mistyped "msg", or a missing "sdp", posts that JSON error; the session is unchanged |
| Session.OnOffer | app/src/main/java/cn/neoclub/app/neo_rtc/WebSocketRTCClient.java:267-276 | a readable offer appends the sender to the roster and is forwarded exactly when the roster was empty; an unreadable one is rejected |
| Session.OnLeaveAsWritten | app/src/main/java/cn/neoclub/app/neo_rtc/WebSocketRTCClient.java:277-280 | on a non-empty roster, the listener is told the channel closed exactly when the sender is the first member; nothing else changes |
| Session.OnLeave | app/src/main/java/cn/neoclub/app/neo_rtc/WebSocketRTCClient.java:277-280 | the same rule guarded against an empty roster, and equal to the above wherever that is defined |
| Session.Others | app/src/main/java/cn/neoclub/app/neo_rtc/WebSocketRTCClient.java:288-292 | the listed ids kept are exactly those different from the own id, each as often as it is listed |
| Session.OthersAppend | app/src/main/java/cn/neoclub/app/neo_rtc/WebSocketRTCClient.java:288-292 | the roster keeps the listed order: the kept ids of two lists one after the other are the kept ids of the first, then those of the second |
| Session.RosterOf | app/src/main/java/cn/neoclub/app/neo_rtc/WebSocketRTCClient.java:285-287 | an absent or empty "members" field lists nobody, an array lists its items, and any other value is a type error on "members" |
| Session.AddMembers | app/src/main/java/cn/neoclub/app/neo_rtc/WebSocketRTCClient.java:285-293 | the roster gains every listed id but the own one, in order, exactly when every entry is a string; it only ever grows and never gains the own id |
| Session.OnLoginAck | app/src/main/java/cn/neoclub/app/neo_rtc/WebSocketRTCClient.java:281-298 | a good roster connects the room and reports first-in exactly when the roster is then empty; a bad one posts an error and leaves the room state alone |
| Session.OnCommand | app/src/main/java/cn/neoclub/app/neo_rtc/WebSocketRTCClient.java:248-303 | only a login-ack changes the room state; "ice", "remove-candidates" and "answer" frames are decoded into their notification or post the JSON error that stopped the decoding; an unknown command posts an unexpected-message error; "browser" does nothing |
| Session.OnMessage | app/src/main/java/cn/neoclub/app/neo_rtc/WebSocketRTCClient.java:232-314 | outside REGISTERED nothing happens; a non-empty "from" replaces the remote id; no command means a server or unexpected-message error; text that is not JSON is a parse error; the roster only grows |
| Session.Absorb | app/src/main/java/cn/neoclub/app/neo_rtc/WebSocketRTCClient.java:316-324 | channel actions pass through unchanged, and the channel's callbacks never notify an error directly |
| Session.ConnectSocket | app/src/main/java/cn/neoclub/app/neo_rtc/WebSocketRTCClient.java:110-117 | connecting opens the configured endpoint from NEW; only the channel's recorded URL changes |
| Session.OnSocketOpen | app/src/main/java/cn/neoclub/app/neo_rtc/WebSocketChannelClient.java:197-207 | an open registers the channel with its own ids and flushes its backlog; nothing but the channel's state and backlog changes |
| Session.OnSocketClose | app/src/main/java/cn/neoclub/app/neo_rtc/WebSocketRTCClient.java:316-319 | a close reaches the listener exactly when the channel was not CLOSED; only the channel's state changes |
| Session.OnSocketText | app/src/main/java/cn/neoclub/app/neo_rtc/WebSocketRTCClient.java:232-236 | inbound text is dispatched exactly while the channel is REGISTERED |
| Session.RunChannelError | app/src/main/java/cn/neoclub/app/neo_rtc/WebSocketRTCClient.java:321-324 | a first channel error becomes a posted room error; later ones are swallowed; only the channel's state changes |
| SessionTraces.RelayedIceIsDelivered | app/src/main/java/cn/neoclub/app/neo_rtc/WebSocketRTCClient.java:249-252 | the peer learns exactly the candidate that `sendLocalIceCandidate` sent |
| SessionTraces.RelayedAnswerIsDelivered | app/src/main/java/cn/neoclub/app/neo_rtc/WebSocketRTCClient.java:260-266 | the peer learns exactly the answer that `sendAnswerSdp` sent |
| SessionTraces.RelayedOfferJoinsRoster | app/src/main/java/cn/neoclub/app/neo_rtc/WebSocketRTCClient.java:267-276 | the offerer joins the roster and becomes the remote id; the offer is forwarded exactly when the roster was empty |
| SessionTraces.RelayedRemovalIsDelivered | app/src/main/java/cn/neoclub/app/neo_rtc/WebSocketRTCClient.java:253-259 | with the corrected tag, the peer learns exactly the removed candidates |
| SessionTraces.LeaveClosesIffFirstMember | app/src/main/java/cn/neoclub/app/neo_rtc/WebSocketRTCClient.java:277-280 | a leave tells the listener the channel closed exactly when its sender is the first member, and is ignored on an empty roster |
| SessionTraces.LoginAckConnects | app/src/main/java/cn/neoclub/app/neo_rtc/WebSocketRTCClient.java:281-298 | a login-ack appends the other listed ids, connects the room and reports first-in exactly when the roster is empty |
| SessionTraces.FirstInIffAlone | app/src/main/java/cn/neoclub/app/neo_rtc/WebSocketRTCClient.java:326-334 | into an empty roster, the client is first in exactly when no id other than its own is listed |
| SessionTraces.RoomErrorIsAbsorbing | app/src/main/java/cn/neoclub/app/neo_rtc/WebSocketRTCClient.java:338-349 | under every event but leaving and a parsed login-ack, faulting inbound frames included, the room stays in ERROR and notifies no further error |
| SessionTraces.RoomErrorNotifiedAtMostOnce | app/src/main/java/cn/neoclub/app/neo_rtc/WebSocketRTCClient.java:343-346 | on every run without leaving or a parsed login-ack, faulting inbound frames included, at most one room error reaches the listener |
| SessionTraces.LeaveRoomIsQuiet | app/src/main/java/cn/neoclub/app/neo_rtc/WebSocketRTCClient.java:120-126 | leaving a registered room says bye and closes the socket, the room is CLOSED, and the close callback after it stays silent |
| SessionTraces.Registers | app/src/main/java/cn/neoclub/app/neo_rtc/WebSocketChannelClient.java:197-207 | connect then open yields the socket open and the register frame, a REGISTERED channel and an empty roster |
| SessionTraces.LoginScenario | app/src/main/java/cn/neoclub/app/neo_rtc/WebSocketRTCClient.java:281-298 | connect, open and login-ack give the socket open, the register frame and the first-in report, with the other listed ids as roster |
| SessionTraces.FirstInScenario | app/src/main/java/cn/neoclub/app/neo_rtc/WebSocketRTCClient.java:331-334 | alone in the room the client is first in with an empty roster |
| SessionTraces.SecondInScenario | app/src/main/java/cn/neoclub/app/neo_rtc/WebSocketRTCClient.java:288-294 | joining a room with "peer1" the client is not first in, and the roster is exactly ["peer1"] |
| Findings.LeaveBeforeLoginAck | app/src/main/java/cn/neoclub/app/neo_rtc/WebSocketRTCClient.java:278 | a registered session reached by connect and open has an empty roster, where the leave branch as written cannot run; the corrected branch ignores the frame |
| Findings.RelayedRemovalAsWrittenIsRejected | app/src/main/java/cn/neoclub/app/neo_rtc/WebSocketRTCClient.java:212 | the removal frame as written reaches the peer without a command and is reported as an unexpected message |

## Left out

- The executor and its thread checks (`checkIfCalledOnValidThread`): posted runnables are run in order as events of a run, and thread confinement is assumed.
- The timed wait for the close event in `disconnect(true)` and the `waitForComplete` flag: they only block the caller and change no state.
- `connectToRoom`, `connectToRoomInternal` and `disconnectFromRoom`'s executor wrapper: the HTTP fetch of the ICE server list and the post to the executor are outside the core. `Session.Create` takes the server list as a parameter.
- The URL constants of `ContentManager` are not part of this model: the endpoint is a parameter.
- The null check of `wsClient` in `disconnectFromRoomInternal`: the session always owns a channel.
- Log output, the raw-text and binary callbacks (empty in the source), and the text of error messages: faults are datatypes, not strings.
- JSON text: serialisation and parsing are abstracted. A payload is either a parsed object or `Unparsable`.
- Session.AddMembers: does not model org.json's coercions. A roster entry that is not a string counts as a type error, where Android's `getString` would turn a number into its text.
- Candidates.FromJson: likewise does not model coercions. A string "sdpMLineIndex" is a type error, not a converted int. JSON numbers are integers in this model; a fractional literal, which `getInt` truncates, is not represented.
- Session.OnAnswer: a present "sdp" that is not a string is a type error here and the frame is rejected. Android's `getString` delivers the text of any present value, so the source would notify a description such as "5"; that coercion is not modelled, as for `Session.AddMembers`.
- Session.OnOffer: likewise a non-string "sdp" is rejected and the sender is not added to the roster, where the source reads its text, appends the sender and may forward the offer.
- Session.RosterOf: a "members" string that is not empty is a type error. The source hands its text to `new JSONArray`, so a string that itself spells a JSON array would be parsed; JSON text inside a string is not modelled.
- Frames.Encode: its removal case tags the frame under "cmd", the corrected form; the source writes "type" (line 212 of WebSocketRTCClient.java), which `Frames.RemovalAsWritten` models. `Session.SendLocalIceCandidateRemovals` hands over the corrected frame.
- Frames.Relay: the signalling server is not part of this model. Every `Relayed*` lemma assumes the server forwards a frame to its addressee unchanged except that `toId` is replaced by `from`.
- Json.OptString: gives "" for a value that is not a string. org.json's `optString` returns the text of any non-null value, so a numeric "from" or "cmd" is treated here as absent: `"from": 7` leaves the remote id alone, where the source sets it to "7", and `{"cmd": 5, "error": "x"}` is a server error here, where the source reports an unexpected message.
- Json.ToInt32: reduces every integer modulo 2^32. org.json parses an integral literal beyond 64 bits as a double, and `getInt` then saturates; such literals are not modelled.
- Java `null` strings (for example a null `remote_id` or a null candidate field): strings are never null here.
- Channel.Connect takes the outcome of `ws.connect` as an input: whether the URI parses and whether the library throws belong to the socket library.

## Findings

| source | as written | input that shows it | evidently intended | confidence | as-written member | corrected member |
|---|---|---|---|---|---|---|
| app/src/main/java/cn/neoclub/app/neo_rtc/WebSocketRTCClient.java:278 | the "leave" branch reads `members.get(0)` unguarded | a `{"cmd":"leave","from":"x"}` frame after registration and before any login-ack or offer, when the roster is empty; the read throws on the executor thread | a leave on an empty roster is ignored | high; not executed | Session.OnLeaveAsWritten, Findings.LeaveBeforeLoginAck | Session.OnLeave |
| app/src/main/java/cn/neoclub/app/neo_rtc/WebSocketRTCClient.java:212 | the removal frame puts its tag under "type" instead of "cmd" | `sendLocalIceCandidateRemovals` of any list, relayed to a peer running the same client: its dispatcher finds no "cmd" and reports an unexpected message | the tag goes under "cmd" like every other frame, so the peer removes the candidates | low, since it depends on how the server relays the frame; not executed | Frames.RemovalAsWritten, Findings.RelayedRemovalAsWrittenIsRejected | Frames.Encode, SessionTraces.RelayedRemovalIsDelivered |

=== FILE: candidates.dfy ===
/**
 * The ICE candidate codec of WebSocketRTCClient: `toJsonCandidate` turns a
 * candidate into a three-field JSON object and `toJavaCandidate` reads it
 * back, throwing when a field is absent or of the wrong kind.
 */
module Candidates {
  import opened Wrappers
  import opened Json

  /** org.webrtc.IceCandidate: media stream id, m-line index, candidate line. */
  datatype IceCandidate = IceCandidate(sdpMid: string, sdpMLineIndex: Int32, sdp: string)

  /** The object `toJsonCandidate` builds. */
  function ToJson(c: IceCandidate): (o: Object)
    ensures o.Keys == {"sdpMLineIndex", "sdpMid", "candidate"}
  {
    map["sdpMLineIndex" := JNumber(c.sdpMLineIndex),
        "sdpMid" := JString(c.sdpMid),
        "candidate" := JString(c.sdp)]
  }

  /**
   * `toJavaCandidate`: reads sdpMid, then sdpMLineIndex, then candidate;
   * the first field that is absent or mistyped is the error.
   */
  function FromJson(o: Object): (r: Result<IceCandidate, Error>)
    ensures r.Success? <==>
      && "sdpMid" in o && o["sdpMid"].JString?
      && "sdpMLineIndex" in o && o["sdpMLineIndex"].JNumber?
      && "candidate" in o && o["candidate"].JString?
    ensures r.Success? ==>
      && r.value.sdpMid == o["sdpMid"].s
      && r.value.sdpMLineIndex == ToInt32(o["sdpMLineIndex"].n)
      && r.value.sdp == o["candidate"].s
    ensures r.Failure? && !("sdpMid" in o && o["sdpMid"].JString?) ==>
      r.error == (if "sdpMid" in o then WrongType("sdpMid") else Missing("sdpMid"))
  {
    var mid :- GetString(o, "sdpMid");
    var index :- GetInt(o, "sdpMLineIndex");
    var line :- GetString(o, "candidate");
    Success(IceCandidate(mid, index, line))
  }

  /** The JSON array `sendLocalIceCandidateRemovals` fills, one object per candidate. */
  function ToJsonList(cs: seq<IceCandidate>): (items: seq<Value>)
  {
    seq(|cs|, i requires 0 <= i < |cs| => JObject(ToJson(cs[i])))
  }

  /**
   * The decoding loop of the inbound "remove-candidates" branch:
   * `toJavaCandidate(candidateArray.getJSONObject(i))` for each i in order,
   * stopping at the first element that fails.
   */
  function FromJsonList(items: seq<Value>): (r: Result<seq<IceCandidate>, Error>)
    ensures r.Success? <==>
      forall i :: 0 <= i < |items| ==> items[i].JObject? && FromJson(items[i].fields).Success?
    ensures r.Success? ==>
      && |r.value| == |items|
      && forall i :: 0 <= i < |items| ==> FromJson(items[i].fields) == Success(r.value[i])
    decreases |items|
  {
    if items == [] then Success([])
    else if !items[0].JObject? then Failure(NotAnObject)
    else
      var c :- FromJson(items[0].fields);
      var rest :- FromJsonList(items[1..]);
      assert forall i :: 1 <= i < |items| ==> items[i] == items[1..][i - 1];
      Success([c] + rest)
  }

  /** Decoding an encoded candidate gives back the same triple. */
  lemma RoundTrip(c: IceCandidate)
    ensures FromJson(ToJson(c)) == Success(c)
  {
  }

  /**
   * The converse: a decodable object is determined, on the three fields the
   * codec uses, by the candidate decoded from it (when the index fits in an int).
   */
  lemma DecodeThenEncode(o: Object)
    requires FromJson(o).Success?
    requires -0x8000_0000 <= o["sdpMLineIndex"].n < 0x8000_0000
    ensures forall k :: k in ToJson(FromJson(o).value) ==> k in o && o[k] == ToJson(FromJson(o).value)[k]
  {
  }

  /** Decoding an encoded candidate list gives back the same list, in order. */
  lemma {:induction false} ListRoundTrip(cs: seq<IceCandidate>)
    ensures FromJsonList(ToJsonList(cs)) == Success(cs)
  {
    var items := ToJsonList(cs);
    forall i | 0 <= i < |items|
      ensures items[i].JObject? && FromJson(items[i].fields) == Success(cs[i])
    {
      RoundTrip(cs[i]);
    }
    var r := FromJsonList(items);
    assert r.Success?;
    assert r.value == cs;
  }
}

=== FILE: channel.dfy ===
/**
 * The connection state machine of WebSocketChannelClient: the transport
 * lifecycle, the outbound backlog kept until registration, and the guarded
 * close and error transitions.
 *
 * Each public method, and the body of each runnable the transport
 * callbacks post to the executor, is a pure transition from a client to a
 * `Step`: the next client and what the call emitted, in order.
 */
module Channel {
  import opened Wrappers
  import Json
  import Frames

  /** WebSocketConnectionState. */
  datatype State = New | Connected | Registered | Closed | Error

  /** Why `connect` reported an error. */
  datatype Fault = UriError(detail: string) | ConnectionError(detail: string)

  /**
   * What became of the attempt to open the socket: the handshake started
   * (its end is the `onOpen` or `onClose` callback), the endpoint was not a
   * URI, or the socket library threw.
   */
  datatype ConnectOutcome = Started | BadUri(detail: string) | Refused(detail: string)

  datatype Client = Client(
    state: State,
    roomId: string,
    clientId: string,
    url: string,
    backlog: seq<Frames.Frame>)

  /** What a transition emits, in the order the source does it. */
  datatype Out =
    | Open(url: string)             // ws.connect
    | Transmit(frame: Frames.Frame) // ws.sendTextMessage
    | Shutdown                      // ws.disconnect
    | PostError(fault: Fault)       // reportError: the guarded runnable is posted, not run
    | Deliver(payload: Json.Payload) // events.onWebSocketMessage
    | NotifyClose                   // events.onWebSocketClose
    | NotifyError(fault: Fault)     // events.onWebSocketError

  datatype Step = Step(next: Client, out: seq<Out>)

  /** The constructor: state NEW, empty backlog. */
  function Init(roomId: string, clientId: string): (r: Client)
    ensures r.state == New && r.backlog == []
    ensures r.roomId == roomId && r.clientId == clientId
  {
    Client(New, roomId, clientId, "", [])
  }

  /** The frames `fs` handed to the socket, in order. */
  function Transmits(fs: seq<Frames.Frame>): seq<Out> {
    seq(|fs|, i requires 0 <= i < |fs| => Transmit(fs[i]))
  }

  lemma TransmitsAppend(a: seq<Frames.Frame>, b: seq<Frames.Frame>)
    ensures Transmits(a + b) == Transmits(a) + Transmits(b)
  {
  }

  /** A frame is only ever queued before registration. */
  ghost predicate Valid(c: Client) {
    c.state == Registered ==> c.backlog == []
  }

  /**
   * `connect`: only from NEW. The state itself never moves here; a failure
   * is reported through a posted error task, so no listener sees it yet.
   */
  function Connect(c: Client, url: string, outcome: ConnectOutcome): (r: Step)
    ensures c.state != New ==> r == Step(c, [])
    ensures r.next.state == c.state && r.next.backlog == c.backlog
    ensures r.next.roomId == c.roomId && r.next.clientId == c.clientId
    ensures c.state == New ==> r.next == c.(url := url)
    ensures c.state == New ==>
      && (Open(url) in r.out <==> !outcome.BadUri?)
      && (exists f :: PostError(f) in r.out) == !outcome.Started?
    ensures forall o :: o in r.out ==> o.Open? || o.PostError?
  {
    if c.state != New then Step(c, [])
    else
      var c' := c.(url := url);
      match outcome
      case Started => Step(c', [Open(url)])
      case BadUri(detail) => Step(c', [PostError(UriError(detail))])
      case Refused(detail) => Step(c', [Open(url), PostError(ConnectionError(detail))])
  }

  /**
   * `send`: NEW and CONNECTED append to the backlog, REGISTERED transmits
   * at once, CLOSED and ERROR drop the frame.
   */
  function Send(c: Client, f: Frames.Frame): (r: Step)
    ensures r.next.state == c.state
    ensures c.state == New || c.state == Connected ==>
      r.next == c.(backlog := c.backlog + [f]) && r.out == []
    ensures c.state == Registered ==> r.next == c && r.out == [Transmit(f)]
    ensures c.state == Closed || c.state == Error ==> r == Step(c, [])
  {
    match c.state
    case New | Connected => Step(c.(backlog := c.backlog + [f]), [])
    case Closed | Error => Step(c, [])
    case Registered => Step(c, [Transmit(f)])
  }

  /** `send` applied to each frame of `fs` in turn, as `register`'s flush loop does. */
  function SendAll(c: Client, fs: seq<Frames.Frame>): (r: Step)
    ensures r.next.state == c.state
    ensures c.state == New || c.state == Connected ==>
      r.next == c.(backlog := c.backlog + fs) && r.out == []
    ensures c.state == Registered ==> r.next == c && r.out == Transmits(fs)
    ensures c.state == Closed || c.state == Error ==> r == Step(c, [])
    decreases |fs|
  {
    if fs == [] then Step(c, [])
    else
      var first := Send(c, fs[0]);
      var rest := SendAll(first.next, fs[1..]);
      assert fs == [fs[0]] + fs[1..];
      Step(rest.next, first.out + rest.out)
  }

  /**
   * `register`: always records the ids. Only from CONNECTED does it send
   * the register frame, move to REGISTERED, and then flush the backlog in
   * FIFO order, leaving it empty.
   */
  function Register(c: Client, roomId: string, clientId: string): (r: Step)
    ensures r.next.roomId == roomId && r.next.clientId == clientId
    ensures c.state != Connected ==>
      r.out == [] && r.next.state == c.state && r.next.backlog == c.backlog
    ensures c.state == Connected ==>
      && r.next.state == Registered
      && r.next.backlog == []
      && r.out == [Transmit(Frames.Register(roomId, clientId))] + Transmits(c.backlog)
  {
    var c' := c.(roomId := roomId, clientId := clientId);
    if c.state != Connected then Step(c', [])
    else
      var flushed := SendAll(c'.(state := Registered), c.backlog);
      Step(flushed.next.(backlog := []), [Transmit(Frames.Register(roomId, clientId))] + flushed.out)
  }

  /**
   * `disconnect`: from REGISTERED a bye frame goes out first and the state
   * drops to CONNECTED; from CONNECTED or ERROR the socket is then closed
   * and the state is CLOSED. NEW and CLOSED are left alone.
   */
  function Disconnect(c: Client): (r: Step)
    ensures r.next.backlog == c.backlog
    ensures c.state == Registered ==> r.out == [Transmit(Frames.Bye), Shutdown] && r.next.state == Closed
    ensures c.state == Connected || c.state == Error ==> r.out == [Shutdown] && r.next.state == Closed
    ensures c.state == New || c.state == Closed ==> r == Step(c, [])
    ensures c.state == Registered || c.state == Connected || c.state == Error ==> r.next == c.(state := Closed)
  {
    var bye :=
      if c.state == Registered then
        var sent := Send(c, Frames.Bye);
        Step(sent.next.(state := Connected), sent.out)
      else Step(c, []);
    if bye.next.state == Connected || bye.next.state == Error then
      Step(bye.next.(state := Closed), bye.out + [Shutdown])
    else bye
  }

  /** The task `reportError` posts: the listener hears of it only on the way into ERROR. */
  function ReportError(c: Client, fault: Fault): (r: Step)
    ensures r.next.state == Error
    ensures r.next.backlog == c.backlog
    ensures r.next == (if c.state == Error then c else c.(state := Error))
    ensures r.out == (if c.state == Error then [] else [NotifyError(fault)])
  {
    if c.state != Error then Step(c.(state := Error), [NotifyError(fault)])
    else Step(c, [])
  }

  /**
   * The task `onOpen` posts: CONNECTED, then the pending registration with
   * the stored ids, which therefore always succeeds.
   */
  function OnOpen(c: Client): (r: Step)
    ensures r.next.state == Registered && r.next.backlog == []
    ensures r.next == c.(state := Registered, backlog := [])
    ensures r.out == [Transmit(Frames.Register(c.roomId, c.clientId))] + Transmits(c.backlog)
  {
    Register(c.(state := Connected), c.roomId, c.clientId)
  }

  /** The task `onClose` posts: the listener hears of it only on the way into CLOSED. */
  function OnClose(c: Client): (r: Step)
    ensures r.next.state == Closed
    ensures r.next.backlog == c.backlog
    ensures r.next == (if c.state == Closed then c else c.(state := Closed))
    ensures r.out == (if c.state == Closed then [] else [NotifyClose])
  {
    if c.state != Closed then Step(c.(state := Closed), [NotifyClose])
    else Step(c, [])
  }

  /**
   * `onTextMessage`: a null payload is dropped at once; otherwise the
   * posted task forwards it only while CONNECTED or REGISTERED.
   */
  function OnText(c: Client, payload: Option<Json.Payload>): (r: Step)
    ensures r.next == c
    ensures payload.Some? && (c.state == Connected || c.state == Registered) ==>
      r.out == [Deliver(payload.value)]
    ensures !(payload.Some? && (c.state == Connected || c.state == Registered)) ==> r.out == []
  {
    match payload
    case None => Step(c, [])
    case Some(p) =>
      if c.state == Connected || c.state == Registered then Step(c, [Deliver(p)]) else Step(c, [])
  }

  /** Everything that drives the client: calls from its owner and transport callbacks. */
  datatype Event =
    | Connecting(url: string, outcome: ConnectOutcome)
    | Registering(roomId: string, clientId: string)
    | Sending(frame: Frames.Frame)
    | Disconnecting
    | ErrorTask(fault: Fault)
    | SocketOpened
    | SocketClosed
    | TextReceived(payload: Option<Json.Payload>)

  function Apply(c: Client, e: Event): Step {
    match e
    case Connecting(url, outcome) => Connect(c, url, outcome)
    case Registering(roomId, clientId) => Register(c, roomId, clientId)
    case Sending(f) => Send(c, f)
    case Disconnecting => Disconnect(c)
    case ErrorTask(fault) => ReportError(c, fault)
    case SocketOpened => OnOpen(c)
    case SocketClosed => OnClose(c)
    case TextReceived(p) => OnText(c, p)
  }

  /** The events of `es` executed one after another on the serial executor. */
  function Run(c: Client, es: seq<Event>): Step
    decreases |es|
  {
    if es == [] then Step(c, [])
    else
      var first := Apply(c, es[0]);
      var rest := Run(first.next, es[1..]);
      Step(rest.next, first.out + rest.out)
  }
}

=== FILE: channel_traces.dfy ===
/**
 * Properties of WebSocketChannelClient over sequences of events: the
 * backlog invariant, FIFO delivery across registration, and the
 * at-most-once close and error notifications.
 */
module ChannelTraces {
  import Frames
  import Seqs
  import opened Channel

  /** Running `a` and then `b` is running `a + b`. */
  lemma {:induction false} RunAppend(c: Client, a: seq<Event>, b: seq<Event>)
    ensures Run(c, a + b) ==
      var first := Run(c, a);
      var rest := Run(first.next, b);
      Step(rest.next, first.out + rest.out)
    decreases |a|
  {
    if a == [] {
      assert a + b == b;
    } else {
      var head := Apply(c, a[0]);
      Seqs.ConsAppend(a, b);
      RunAppend(head.next, a[1..], b);
      var tail := Run(head.next, a[1..]);
      Seqs.Assoc(head.out, tail.out, Run(tail.next, b).out);
    }
  }

  /** Running two events. */
  lemma RunPair(c: Client, e1: Event, e2: Event)
    ensures Run(c, [e1, e2]) ==
      var first := Apply(c, e1);
      var second := Apply(first.next, e2);
      Step(second.next, first.out + second.out)
  {
    var first := Apply(c, e1);
    assert [e1, e2][1..] == [e2];
    assert [e2][1..] == [];
    assert Run(first.next, [e2]) == Step(Apply(first.next, e2).next, Apply(first.next, e2).out + []);
  }

  /** Every single transition keeps a registered client's backlog empty. */
  lemma ApplyKeepsValid(c: Client, e: Event)
    requires Valid(c)
    ensures Valid(Apply(c, e).next)
  {
  }

  /** So does every run: nothing is ever queued behind a registered client. */
  lemma {:induction false} RunKeepsValid(c: Client, es: seq<Event>)
    requires Valid(c)
    ensures Valid(Run(c, es).next)
    decreases |es|
  {
    if es != [] {
      ApplyKeepsValid(c, es[0]);
      RunKeepsValid(Apply(c, es[0]).next, es[1..]);
    }
  }

  /** The owner calling `send` once per frame of `fs`. */
  function Sends(fs: seq<Frames.Frame>): seq<Event> {
    seq(|fs|, i requires 0 <= i < |fs| => Sending(fs[i]))
  }

  lemma {:induction false} RunSendsIsSendAll(c: Client, fs: seq<Frames.Frame>)
    ensures Run(c, Sends(fs)) == SendAll(c, fs)
    decreases |fs|
  {
    if fs != [] {
      assert Sends(fs)[0] == Sending(fs[0]);
      assert Sends(fs)[1..] == Sends(fs[1..]);
      RunSendsIsSendAll(Send(c, fs[0]).next, fs[1..]);
    }
  }

  /**
   * Frames sent before the socket opens are transmitted right after the
   * register frame, exactly once, in the order they were sent, and before
   * every frame sent after registration.
   */
  lemma QueuedFramesFlushInOrder(c: Client, early: seq<Frames.Frame>, late: seq<Frames.Frame>)
    requires c.state == New || c.state == Connected
    ensures
      var r := Run(c, Sends(early) + [SocketOpened] + Sends(late));
      && r.out == [Transmit(Frames.Register(c.roomId, c.clientId))] + Transmits(c.backlog + early + late)
      && r.next.state == Registered
      && r.next.backlog == []
  {
    var queued := QueueBeforeOpen(c, early);
    var open := OnOpen(queued.next);
    RunAppend(c, Sends(early) + [SocketOpened], Sends(late));
    RunSendsIsSendAll(open.next, late);
    var after := SendAll(open.next, late);
    assert open.out == [Transmit(Frames.Register(c.roomId, c.clientId))] + Transmits(c.backlog + early);
    assert after.out == Transmits(late);
    TransmitsAppend(c.backlog + early, late);
    Seqs.Assoc([Transmit(Frames.Register(c.roomId, c.clientId))], Transmits(c.backlog + early), Transmits(late));
  }

  /** The first half of the above: sends then the open callback. */
  lemma QueueBeforeOpen(c: Client, early: seq<Frames.Frame>) returns (queued: Step)
    requires c.state == New || c.state == Connected
    ensures queued == Run(c, Sends(early)) && queued.out == [] && queued.next.backlog == c.backlog + early
    ensures queued.next.roomId == c.roomId && queued.next.clientId == c.clientId
    ensures Run(c, Sends(early) + [SocketOpened]) == OnOpen(queued.next)
  {
    RunAppend(c, Sends(early), [SocketOpened]);
    RunSendsIsSendAll(c, early);
    queued := Run(c, Sends(early));
    assert Run(queued.next, [SocketOpened]) == OnOpen(queued.next) by {
      assert [SocketOpened][1..] == [];
    }
  }

  /** How many error notifications `out` holds. */
  function ErrorCount(out: seq<Out>): nat {
    Seqs.Count(out, (o: Out) => o.NotifyError?)
  }

  /** How many close notifications `out` holds. */
  function CloseCount(out: seq<Out>): nat {
    Seqs.Count(out, (o: Out) => o.NotifyClose?)
  }

  /** Only a posted error task, run outside ERROR, notifies an error; it then leaves the client in ERROR. */
  lemma ApplyErrorCount(c: Client, e: Event)
    ensures ErrorCount(Apply(c, e).out) == (if e.ErrorTask? && c.state != Error then 1 else 0)
  {
    var out := Apply(c, e).out;
    if e.ErrorTask? {
      if c.state != Error {
        assert out == [NotifyError(e.fault)];
        Seqs.CountOne(NotifyError(e.fault), (o: Out) => o.NotifyError?);
      }
    } else {
      assert forall i :: 0 <= i < |out| ==> !out[i].NotifyError?;
      Seqs.CountNone(out, (o: Out) => o.NotifyError?);
    }
  }

  /** Only the close callback, run outside CLOSED, notifies a close; it then leaves the client CLOSED. */
  lemma ApplyCloseCount(c: Client, e: Event)
    ensures CloseCount(Apply(c, e).out) == (if e.SocketClosed? && c.state != Closed then 1 else 0)
  {
    var out := Apply(c, e).out;
    if e.SocketClosed? {
      if c.state != Closed {
        assert out == [NotifyClose];
        Seqs.CountOne(NotifyClose, (o: Out) => o.NotifyClose?);
      }
    } else {
      assert forall i :: 0 <= i < |out| ==> !out[i].NotifyClose?;
      Seqs.CountNone(out, (o: Out) => o.NotifyClose?);
    }
  }

  /** The events that can take a client out of ERROR: disconnect, the close and the open callbacks. */
  predicate LeavesError(e: Event) {
    e.Disconnecting? || e.SocketClosed? || e.SocketOpened?
  }

  /** The events that can take a client out of CLOSED: the open callback and a posted error task. */
  predicate LeavesClosed(e: Event) {
    e.SocketOpened? || e.ErrorTask?
  }

  /** One event that does not leave ERROR keeps the client there and transmits nothing. */
  lemma ApplyInError(c: Client, e: Event)
    requires c.state == Error && !LeavesError(e)
    ensures Apply(c, e).next.state == Error
    ensures forall o :: o in Apply(c, e).out ==> !o.Transmit?
  {
  }

  /** One event that does not leave CLOSED keeps the client there and transmits nothing. */
  lemma ApplyInClosed(c: Client, e: Event)
    requires c.state == Closed && !LeavesClosed(e)
    ensures Apply(c, e).next.state == Closed
    ensures forall o :: o in Apply(c, e).out ==> !o.Transmit?
  {
  }

  /**
   * ERROR absorbs every other event: the client stays in ERROR, transmits
   * nothing and raises no further error notification.
   */
  lemma {:induction false} ErrorIsAbsorbing(c: Client, es: seq<Event>)
    requires c.state == Error
    requires forall i :: 0 <= i < |es| ==> !LeavesError(es[i])
    ensures Run(c, es).next.state == Error
    ensures ErrorCount(Run(c, es).out) == 0
    ensures forall o :: o in Run(c, es).out ==> !o.Transmit?
    decreases |es|
  {
    if es != [] {
      var first := Apply(c, es[0]);
      var rest := Run(first.next, es[1..]);
      assert Run(c, es) == Step(rest.next, first.out + rest.out);
      assert forall i :: 0 <= i < |es[1..]| ==> !LeavesError(es[1..][i]);
      ApplyInError(c, es[0]);
      ApplyErrorCount(c, es[0]);
      ErrorIsAbsorbing(first.next, es[1..]);
      Seqs.CountAppend(first.out, rest.out, (o: Out) => o.NotifyError?);
    }
  }

  /**
   * Whatever happens in between, short of leaving ERROR, the listener hears
   * of an error at most once.
   */
  lemma {:induction false} ErrorNotifiedAtMostOnce(c: Client, es: seq<Event>)
    requires forall i :: 0 <= i < |es| ==> !LeavesError(es[i])
    ensures ErrorCount(Run(c, es).out) <= 1
    decreases |es|
  {
    if es != [] {
      var first := Apply(c, es[0]);
      var rest := Run(first.next, es[1..]);
      assert Run(c, es).out == first.out + rest.out;
      assert forall i :: 0 <= i < |es[1..]| ==> !LeavesError(es[1..][i]);
      Seqs.CountAppend(first.out, rest.out, (o: Out) => o.NotifyError?);
      ApplyErrorCount(c, es[0]);
      if first.next.state == Error {
        ErrorIsAbsorbing(first.next, es[1..]);
      } else {
        ErrorNotifiedAtMostOnce(first.next, es[1..]);
      }
    }
  }

  /**
   * CLOSED absorbs every other event: the client stays CLOSED, transmits
   * nothing and raises no further close notification.
   */
  lemma {:induction false} ClosedIsAbsorbing(c: Client, es: seq<Event>)
    requires c.state == Closed
    requires forall i :: 0 <= i < |es| ==> !LeavesClosed(es[i])
    ensures Run(c, es).next.state == Closed
    ensures CloseCount(Run(c, es).out) == 0
    ensures forall o :: o in Run(c, es).out ==> !o.Transmit?
    decreases |es|
  {
    if es != [] {
      var first := Apply(c, es[0]);
      var rest := Run(first.next, es[1..]);
      assert Run(c, es) == Step(rest.next, first.out + rest.out);
      assert forall i :: 0 <= i < |es[1..]| ==> !LeavesClosed(es[1..][i]);
      ApplyInClosed(c, es[0]);
      ApplyCloseCount(c, es[0]);
      ClosedIsAbsorbing(first.next, es[1..]);
      Seqs.CountAppend(first.out, rest.out, (o: Out) => o.NotifyClose?);
    }
  }

  /** Short of leaving CLOSED, the listener hears of a close at most once. */
  lemma {:induction false} CloseNotifiedAtMostOnce(c: Client, es: seq<Event>)
    requires forall i :: 0 <= i < |es| ==> !LeavesClosed(es[i])
    ensures CloseCount(Run(c, es).out) <= 1
    decreases |es|
  {
    if es != [] {
      var first := Apply(c, es[0]);
      var rest := Run(first.next, es[1..]);
      assert Run(c, es).out == first.out + rest.out;
      assert forall i :: 0 <= i < |es[1..]| ==> !LeavesClosed(es[1..][i]);
      Seqs.CountAppend(first.out, rest.out, (o: Out) => o.NotifyClose?);
      ApplyCloseCount(c, es[0]);
      if first.next.state == Closed {
        ClosedIsAbsorbing(first.next, es[1..]);
      } else {
        CloseNotifiedAtMostOnce(first.next, es[1..]);
      }
    }
  }

  /**
   * A graceful disconnect of a registered client says bye and closes the
   * socket; the close callback that follows finds the client already
   * CLOSED and stays silent.
   */
  lemma GracefulDisconnectIsQuiet(c: Client)
    requires c.state == Registered
    ensures Run(c, [Disconnecting, SocketClosed]).out == [Transmit(Frames.Bye), Shutdown]
    ensures Run(c, [Disconnecting, SocketClosed]).next.state == Closed
  {
    RunPair(c, Disconnecting, SocketClosed);
  }

  /** A second `connect` never changes the state; outside NEW it does nothing at all. */
  lemma ConnectKeepsState(c: Client, url1: string, o1: ConnectOutcome, url2: string, o2: ConnectOutcome)
    ensures Run(c, [Connecting(url1, o1), Connecting(url2, o2)]).next.state == c.state
    ensures c.state != New ==> Run(c, [Connecting(url1, o1), Connecting(url2, o2)]) == Step(c, [])
  {
    RunPair(c, Connecting(url1, o1), Connecting(url2, o2));
  }
}

=== FILE: findings.dfy ===
/**
 * Two places where WebSocketRTCClient does not do what it evidently
 * means to, each shown on a concrete input against the definition as
 * written, next to the corrected definition the rest of the model uses.
 */
module Findings {
  import opened Json
  import Candidates
  import Frames
  import Channel
  import opened Session
  import SessionTraces

  /**
   * A "leave" that arrives after registration but before the login-ack
   * finds an empty roster: the code as written reads the first member and
   * throws (`OnLeaveAsWritten` cannot be applied to this client), while
   * the corrected dispatch only records the sender and ignores the frame.
   */
  lemma LeaveBeforeLoginAck(roomId: string, me: string, url: string, servers: seq<IceServer>, from: string)
    requires from != ""
    ensures
      var s := Run(Create(roomId, me, url, servers), [Connecting(Channel.Started), SocketOpened]).next;
      && s.ws.state == Channel.Registered
      && !(|s.members| > 0)
      && OnMessage(s, Parsed(SessionTraces.LeaveFrame(from))) == Step(s.(remoteId := from), [])
  {
    var s := SessionTraces.Registers(roomId, me, url, servers);
    SessionTraces.LeaveClosesIffFirstMember(s, from);
  }

  /**
   * The removal frame as written carries its tag under "type", so once
   * relayed the receiving peer finds no command and reports an unexpected
   * message instead of removing the candidates; the corrected frame is
   * delivered (`SessionTraces.RelayedRemovalIsDelivered`).
   */
  lemma RelayedRemovalAsWrittenIsRejected(s: Client, cs: seq<Candidates.IceCandidate>, from: string)
    requires s.ws.state == Channel.Registered && from != ""
    ensures
      var p := Parsed(Frames.Relay(Frames.RemovalAsWritten(cs), from));
      OnMessage(s, p) == Step(s.(remoteId := from), [PostError(UnexpectedMessage(p))])
  {
    var o := Frames.Relay(Frames.RemovalAsWritten(cs), from);
    assert "cmd" !in o;
    assert "error" !in o;
  }
}

=== FILE: frames.dfy ===
/**
 * Outbound signalling frames, as a datatype, and the JSON objects the
 * source builds for them before handing their text to the socket.
 */
module Frames {
  import opened Json
  import Candidates

  /** SessionDescription.Type, restricted to the two kinds the client exchanges. */
  datatype SdpType = OfferSdp | AnswerSdp

  /** org.webrtc.SessionDescription. */
  datatype SessionDescription = SessionDescription(kind: SdpType, description: string)

  /** A frame the client hands to the channel's `send` (or `register`). */
  datatype Frame =
    | Register(roomId: string, clientId: string)
    | Offer(sdp: string, toId: string)
    | Answer(sdp: string, toId: string)
    | Ice(candidate: Candidates.IceCandidate, toId: string)
    | RemoveCandidates(candidates: seq<Candidates.IceCandidate>)
    | Bye

  /** `SessionDescription.Type.canonicalForm()`. */
  function CanonicalForm(t: SdpType): string {
    match t
    case OfferSdp => "offer"
    case AnswerSdp => "answer"
  }

  /** The command tag each frame is sent under. */
  function Command(f: Frame): string {
    match f
    case Register(_, _) => "register"
    case Offer(_, _) => "offer"
    case Answer(_, _) => "answer"
    case Ice(_, _) => "ice"
    case RemoveCandidates(_) => "remove-candidates"
    case Bye => "bye"
  }

  /** The `msg` object of an offer or answer frame. */
  function SdpObject(t: SdpType, sdp: string): Object {
    map["sdp" := JString(sdp), "type" := JString(CanonicalForm(t))]
  }

  /**
   * The JSON object built for each frame. Every frame carries its command
   * under "cmd"; offers, answers and candidates name their addressee under
   * "toId"; removals are not addressed.
   */
  function Encode(f: Frame): (o: Object)
    ensures "cmd" in o && o["cmd"] == JString(Command(f))
    ensures "toId" in o <==> f.Offer? || f.Answer? || f.Ice?
    ensures f.Offer? || f.Answer? || f.Ice? ==> o["toId"] == JString(f.toId)
  {
    match f
    case Register(roomId, clientId) =>
      map["cmd" := JString("register"), "roomId" := JString(roomId), "clientId" := JString(clientId)]
    case Offer(sdp, toId) =>
      map["cmd" := JString("offer"), "msg" := JObject(SdpObject(OfferSdp, sdp)), "toId" := JString(toId)]
    case Answer(sdp, toId) =>
      map["cmd" := JString("answer"), "msg" := JObject(SdpObject(AnswerSdp, sdp)), "toId" := JString(toId)]
    case Ice(c, toId) =>
      map["cmd" := JString("ice"), "msg" := JObject(Candidates.ToJson(c)), "toId" := JString(toId)]
    case RemoveCandidates(cs) =>
      map["cmd" := JString("remove-candidates"), "candidates" := JArray(Candidates.ToJsonList(cs))]
    case Bye =>
      map["cmd" := JString("bye")]
  }

  /**
   * The removal object as the source builds it: the tag goes under "type",
   * so the object has no "cmd" field at all.
   */
  function RemovalAsWritten(cs: seq<Candidates.IceCandidate>): (o: Object)
    ensures "cmd" !in o
    ensures "type" in o && o["type"] == JString(Command(RemoveCandidates(cs)))
    ensures o - {"type"} == Encode(RemoveCandidates(cs)) - {"cmd"}
  {
    map["type" := JString("remove-candidates"), "candidates" := JArray(Candidates.ToJsonList(cs))]
  }

  /**
   * What the signalling server delivers to the addressee of a frame: the
   * same object with the addressing field replaced by the sender's id.
   */
  function Relay(o: Object, from: string): (r: Object)
    ensures "toId" !in r && "from" in r && r["from"] == JString(from)
    ensures forall k :: k in o && k != "toId" && k != "from" ==> k in r && r[k] == o[k]
  {
    (o - {"toId"})["from" := JString(from)]
  }
}

=== FILE: json.dfy ===
/**
 * The part of org.json the signalling code relies on: a parsed JSON value
 * and the accessors the source calls on a JSONObject.
 *
 * A field whose value is itself JSON text (the "msg" and "members" fields
 * of inbound frames) is represented by the value that text parses to; a
 * string in such a field stands for text that does not parse.
 */
module Json {
  import opened Wrappers

  /** Java's 32-bit `int`. */
  type Int32 = n: int | -0x8000_0000 <= n < 0x8000_0000

  datatype Value =
    | JNull
    | JBool(b: bool)
    | JNumber(n: int)
    | JString(s: string)
    | JArray(items: seq<Value>)
    | JObject(fields: map<string, Value>)

  type Object = map<string, Value>

  /** A text frame from the transport: a JSON object, or text that is not one. */
  datatype Payload = Unparsable | Parsed(obj: Object)

  /** Why an accessor threw JSONException. */
  datatype Error =
    | NotJson               // the frame text is not a JSON object
    | Missing(key: string)  // get*(key) on an absent key
    | WrongType(key: string) // get*(key) on a value of another kind
    | NotAnObject           // getJSONObject(i) on an array element that is not an object

  /** Java's `Number.intValue()` on an integral value: the low 32 bits, two's complement. */
  function ToInt32(n: int): (r: Int32)
    ensures -0x8000_0000 <= n < 0x8000_0000 ==> r == n
    ensures (n - r) % 0x1_0000_0000 == 0
  {
    var m := n % 0x1_0000_0000;
    if m < 0x8000_0000 then m else m - 0x1_0000_0000
  }

  /** `optString(key)`: the string stored under `key`, or "" when there is none. */
  function OptString(o: Object, key: string): (r: string) {
    if key in o && o[key].JString? then o[key].s else ""
  }

  /** `getString(key)`. */
  function GetString(o: Object, key: string): (r: Result<string, Error>) {
    if key !in o then Failure(Missing(key))
    else if o[key].JString? then Success(o[key].s)
    else Failure(WrongType(key))
  }

  /** `getInt(key)`. */
  function GetInt(o: Object, key: string): (r: Result<Int32, Error>) {
    if key !in o then Failure(Missing(key))
    else if o[key].JNumber? then Success(ToInt32(o[key].n))
    else Failure(WrongType(key))
  }

  /** `getJSONArray(key)`. */
  function GetArray(o: Object, key: string): (r: Result<seq<Value>, Error>) {
    if key !in o then Failure(Missing(key))
    else if o[key].JArray? then Success(o[key].items)
    else Failure(WrongType(key))
  }

  /** `new JSONObject(getString(key))`: the object a field carries as JSON text. */
  function GetEmbeddedObject(o: Object, key: string): (r: Result<Object, Error>) {
    if key !in o then Failure(Missing(key))
    else if o[key].JObject? then Success(o[key].fields)
    else Failure(WrongType(key))
  }
}

=== FILE: seqs.dfy ===
/** Sequence facts the trace proofs lean on, stated once. */
module Seqs {

  lemma ConsAppend<X>(a: seq<X>, b: seq<X>)
    requires a != []
    ensures (a + b)[0] == a[0] && (a + b)[1..] == a[1..] + b
  {
  }

  lemma Assoc<X>(x: seq<X>, y: seq<X>, z: seq<X>)
    ensures x + (y + z) == (x + y) + z
  {
  }

  /** How many elements of `xs` satisfy `p`. */
  function Count<X>(xs: seq<X>, p: X -> bool): nat {
    if xs == [] then 0 else (if p(xs[0]) then 1 else 0) + Count(xs[1..], p)
  }

  lemma {:induction false} CountAppend<X>(a: seq<X>, b: seq<X>, p: X -> bool)
    ensures Count(a + b, p) == Count(a, p) + Count(b, p)
    decreases |a|
  {
    if a == [] {
      assert a + b == b;
    } else {
      assert (a + b)[1..] == a[1..] + b;
      CountAppend(a[1..], b, p);
    }
  }

  lemma {:induction false} CountNone<X>(xs: seq<X>, p: X -> bool)
    requires forall i :: 0 <= i < |xs| ==> !p(xs[i])
    ensures Count(xs, p) == 0
    decreases |xs|
  {
    if xs != [] {
      CountNone(xs[1..], p);
    }
  }

  /** A one-element sequence counts one exactly when its element satisfies `p`. */
  lemma CountOne<X>(x: X, p: X -> bool)
    ensures Count([x], p) == if p(x) then 1 else 0
  {
    assert [x][1..] == [];
  }
}

=== FILE: session.dfy ===
/**
 * The session controller of WebSocketRTCClient: the room state, the member
 * roster and the active remote id, the builders of outbound negotiation
 * frames, and the dispatcher of inbound frames to the signalling events.
 *
 * The session owns its WebSocketChannelClient (`ws`). As in the channel
 * module, each method and each posted runnable body is a pure transition
 * to a `Step`: the next session and what the call emitted, in order.
 */
module Session {
  import opened Wrappers
  import Json
  import Candidates
  import Frames
  import Channel
  import Seqs

  /** ConnectionState: the room-level lifecycle. */
  datatype RoomState = New | Connected | Closed | Error

  /** PeerConnection.IceServer, taken as given from the server directory. */
  datatype IceServer = IceServer(url: string, username: string, credential: string)

  /** Why the session reported an error. */
  datatype Fault =
    | OfferWhileNotConnected             // sendOfferSdp outside CONNECTED
    | RemovalsWhileNotConnected          // sendLocalIceCandidateRemovals outside CONNECTED
    | BadFrame(cause: Json.Error)        // a JSONException while dispatching
    | BadLoginAck(cause: Json.Error)     // a JSONException while reading a login-ack roster
    | ServerError(text: string)          // a frame with no command and a non-empty "error"
    | UnexpectedMessage(payload: Json.Payload) // an unknown command, or neither command nor error
    | SocketError(channelFault: Channel.Fault) // onWebSocketError

  /** SignalingEvents: one variant per callback. */
  datatype Notification =
    | ConnectedToRoom(first: bool, servers: seq<IceServer>)
    | RemoteDescription(sdp: Frames.SessionDescription)
    | RemoteIceCandidate(candidate: Candidates.IceCandidate)
    | RemoteIceCandidatesRemoved(candidates: seq<Candidates.IceCandidate>)
    | ChannelClose
    | ChannelError(fault: Fault)

  /** What a transition emits: channel actions, listener callbacks, posted error tasks. */
  datatype Out =
    | Wire(action: Channel.Out)
    | Notify(event: Notification)
    | PostError(fault: Fault)

  /** An error reported to the listener straight away rather than through a posted task. */
  predicate ErrorNotice(o: Out) {
    o.Notify? && o.event.ChannelError?
  }

  datatype Client = Client(
    room: RoomState,
    clientId: string,
    members: seq<string>,
    remoteId: string,
    servers: seq<IceServer>,
    wsUrl: string,
    ws: Channel.Client)

  datatype Step = Step(next: Client, out: seq<Out>)

  /**
   * The constructor followed by `connectToRoomInternal` up to the point
   * where the server list is known: room NEW, a fresh channel, no members.
   */
  function Create(roomId: string, clientId: string, wsUrl: string, servers: seq<IceServer>): (r: Client)
    ensures r.room == New && r.members == [] && r.remoteId == ""
    ensures r.clientId == clientId && r.servers == servers && r.wsUrl == wsUrl
    ensures r.ws.state == Channel.New && r.ws.backlog == []
    ensures r.ws.roomId == roomId && r.ws.clientId == clientId
  {
    Client(New, clientId, [], "", servers, wsUrl, Channel.Init(roomId, clientId))
  }

  function Lift(outs: seq<Channel.Out>): seq<Out> {
    seq(|outs|, i requires 0 <= i < |outs| => Wire(outs[i]))
  }

  /**
   * What handing `f` to the channel's `send` amounts to for the session:
   * only the channel changes; a registered channel transmits `f` at once, a
   * channel not yet registered queues it, a closed or failed one drops it.
   */
  ghost predicate Handed(s: Client, f: Frames.Frame, r: Step) {
    && r.next == s.(ws := r.next.ws)
    && (s.ws.state == Channel.Registered ==>
          r.next.ws == s.ws && r.out == [Wire(Channel.Transmit(f))])
    && (s.ws.state == Channel.New || s.ws.state == Channel.Connected ==>
          r.next.ws == s.ws.(backlog := s.ws.backlog + [f]) && r.out == [])
    && (s.ws.state == Channel.Closed || s.ws.state == Channel.Error ==>
          r == Step(s, []))
  }

  /** `wsClient.send(f)`. */
  function Hand(s: Client, f: Frames.Frame): (r: Step)
    ensures Handed(s, f, r)
  {
    var sent := Channel.Send(s.ws, f);
    Step(s.(ws := sent.next), Lift(sent.out))
  }

  /**
   * `sendOfferSdp`: outside CONNECTED it reports an error. With exactly one
   * member the offer goes to that member; with more the listener is told
   * the channel closed instead; with none it does nothing.
   */
  function SendOfferSdp(s: Client, description: string): (r: Step)
    ensures s.room != Connected ==> r == Step(s, [PostError(OfferWhileNotConnected)])
    ensures s.room == Connected && |s.members| == 1 ==>
      Handed(s, Frames.Offer(description, s.members[0]), r)
    ensures s.room == Connected && |s.members| > 1 ==> r == Step(s, [Notify(ChannelClose)])
    ensures s.room == Connected && s.members == [] ==> r == Step(s, [])
  {
    if s.room != Connected then Step(s, [PostError(OfferWhileNotConnected)])
    else if |s.members| == 1 then Hand(s, Frames.Offer(description, s.members[0]))
    else if |s.members| > 1 then Step(s, [Notify(ChannelClose)])
    else Step(s, [])
  }

  /** `sendAnswerSdp`: the answer is addressed to the active remote id, in any room state. */
  function SendAnswerSdp(s: Client, description: string): (r: Step)
    ensures Handed(s, Frames.Answer(description, s.remoteId), r)
  {
    Hand(s, Frames.Answer(description, s.remoteId))
  }

  /** `sendLocalIceCandidate`: the candidate is addressed to the active remote id, in any room state. */
  function SendLocalIceCandidate(s: Client, c: Candidates.IceCandidate): (r: Step)
    ensures Handed(s, Frames.Ice(c, s.remoteId), r)
  {
    Hand(s, Frames.Ice(c, s.remoteId))
  }

  /** `sendLocalIceCandidateRemovals`: only in CONNECTED; the removal frame carries no addressee. */
  function SendLocalIceCandidateRemovals(s: Client, cs: seq<Candidates.IceCandidate>): (r: Step)
    ensures s.room != Connected ==> r == Step(s, [PostError(RemovalsWhileNotConnected)])
    ensures s.room == Connected ==> Handed(s, Frames.RemoveCandidates(cs), r)
  {
    if s.room != Connected then Step(s, [PostError(RemovalsWhileNotConnected)])
    else Hand(s, Frames.RemoveCandidates(cs))
  }

  /**
   * `disconnectFromRoomInternal`: the room is CLOSED whatever it was, and
   * the channel is disconnected (saying bye first when registered).
   */
  function DisconnectFromRoom(s: Client): (r: Step)
    ensures r.next.room == Closed
    ensures r.next.members == s.members && r.next.remoteId == s.remoteId
    ensures s.ws.state == Channel.Registered ==>
      r.out == [Wire(Channel.Transmit(Frames.Bye)), Wire(Channel.Shutdown)] && r.next.ws.state == Channel.Closed
    ensures s.ws.state == Channel.Connected || s.ws.state == Channel.Error ==>
      r.out == [Wire(Channel.Shutdown)] && r.next.ws.state == Channel.Closed
    ensures s.ws.state == Channel.New || s.ws.state == Channel.Closed ==>
      r.out == [] && r.next.ws == s.ws
    ensures s.ws.state != Channel.New && s.ws.state != Channel.Closed ==> r.next.ws == s.ws.(state := Channel.Closed)
    ensures r.next == s.(room := Closed, ws := r.next.ws)
  {
    var closed := Channel.Disconnect(s.ws);
    Step(s.(room := Closed, ws := closed.next), Lift(closed.out))
  }

  /** The task `reportError` posts: the listener hears of it only on the way into ERROR. */
  function ReportError(s: Client, fault: Fault): (r: Step)
    ensures r.next == s.(room := Error)
    ensures r.out == (if s.room == Error then [] else [Notify(ChannelError(fault))])
  {
    if s.room != Error then Step(s.(room := Error), [Notify(ChannelError(fault))])
    else Step(s, [])
  }

  // ------------------------------------------------------------------
  // Inbound dispatch

  /** The command tags `onWebSocketMessage` knows. */
  const Commands: set<string> := {"ice", "remove-candidates", "answer", "offer", "leave", "loginack", "browser"}

  /** The candidate in the "msg" object of an "ice" frame. */
  function IceOf(o: Json.Object): (r: Result<Candidates.IceCandidate, Json.Error>) {
    var m :- Json.GetEmbeddedObject(o, "msg");
    Candidates.FromJson(m)
  }

  /** The candidates listed in a "remove-candidates" frame. */
  function RemovalsOf(o: Json.Object): (r: Result<seq<Candidates.IceCandidate>, Json.Error>) {
    var items :- Json.GetArray(o, "candidates");
    Candidates.FromJsonList(items)
  }

  /** The description in the "msg" object of an "offer" or "answer" frame. */
  function SdpOf(o: Json.Object): (r: Result<string, Json.Error>) {
    var m :- Json.GetEmbeddedObject(o, "msg");
    Json.GetString(m, "sdp")
  }

  function Reject(s: Client, cause: Json.Error): (r: Step) {
    Step(s, [PostError(BadFrame(cause))])
  }

  /**
   * What the "ice" branch does with frame `o`: the "msg" object is decoded
   * as a candidate and handed to the listener; a missing or mistyped "msg",
   * or a candidate that does not decode, is a JSON error instead.
   */
  ghost predicate IceHandled(s: Client, o: Json.Object, r: Step) {
    && r.next == s
    && ("msg" !in o ==> r.out == [PostError(BadFrame(Json.Missing("msg")))])
    && ("msg" in o && !o["msg"].JObject? ==> r.out == [PostError(BadFrame(Json.WrongType("msg")))])
    && ("msg" in o && o["msg"].JObject? ==>
          var decoded := Candidates.FromJson(o["msg"].fields);
          r.out == if decoded.Success? then [Notify(RemoteIceCandidate(decoded.value))]
                   else [PostError(BadFrame(decoded.error))])
  }

  /**
   * What the "remove-candidates" branch does with frame `o`: the
   * "candidates" array is decoded element by element and the whole list is
   * handed to the listener; a missing or mistyped array, or an element
   * that does not decode, is a JSON error instead.
   */
  ghost predicate RemovalHandled(s: Client, o: Json.Object, r: Step) {
    && r.next == s
    && ("candidates" !in o ==> r.out == [PostError(BadFrame(Json.Missing("candidates")))])
    && ("candidates" in o && !o["candidates"].JArray? ==> r.out == [PostError(BadFrame(Json.WrongType("candidates")))])
    && ("candidates" in o && o["candidates"].JArray? ==>
          var decoded := Candidates.FromJsonList(o["candidates"].items);
          r.out == if decoded.Success? then [Notify(RemoteIceCandidatesRemoved(decoded.value))]
                   else [PostError(BadFrame(decoded.error))])
  }

  /**
   * What the "answer" branch does with frame `o`: the "sdp" string of the
   * "msg" object becomes an answer description for the listener; a missing
   * or mistyped "msg" or "sdp" is a JSON error instead.
   */
  ghost predicate AnswerHandled(s: Client, o: Json.Object, r: Step) {
    && r.next == s
    && ("msg" !in o ==> r.out == [PostError(BadFrame(Json.Missing("msg")))])
    && ("msg" in o && !o["msg"].JObject? ==> r.out == [PostError(BadFrame(Json.WrongType("msg")))])
    && ("msg" in o && o["msg"].JObject? ==>
          var m := o["msg"].fields;
          && ("sdp" !in m ==> r.out == [PostError(BadFrame(Json.Missing("sdp")))])
          && ("sdp" in m && !m["sdp"].JString? ==> r.out == [PostError(BadFrame(Json.WrongType("sdp")))])
          && ("sdp" in m && m["sdp"].JString? ==>
                r.out == [Notify(RemoteDescription(Frames.SessionDescription(Frames.AnswerSdp, m["sdp"].s)))]))
  }

  function OnIce(s: Client, o: Json.Object): (r: Step)
    ensures IceHandled(s, o, r)
  {
    match IceOf(o)
    case Success(c) => Step(s, [Notify(RemoteIceCandidate(c))])
    case Failure(e) => Reject(s, e)
  }

  function OnRemoveCandidates(s: Client, o: Json.Object): (r: Step)
    ensures RemovalHandled(s, o, r)
  {
    match RemovalsOf(o)
    case Success(cs) => Step(s, [Notify(RemoteIceCandidatesRemoved(cs))])
    case Failure(e) => Reject(s, e)
  }

  function OnAnswer(s: Client, o: Json.Object): (r: Step)
    ensures AnswerHandled(s, o, r)
  {
    match SdpOf(o)
    case Success(d) => Step(s, [Notify(RemoteDescription(Frames.SessionDescription(Frames.AnswerSdp, d)))])
    case Failure(e) => Reject(s, e)
  }

  /**
   * An inbound offer: once its description is read, the sender (the active
   * remote id) joins the roster, duplicate or not, and the offer is
   * forwarded exactly when the roster was empty before, so that the sender
   * is its only member.
   */
  function OnOffer(s: Client, o: Json.Object): (r: Step)
    ensures SdpOf(o).Failure? ==> r == Reject(s, SdpOf(o).error)
    ensures SdpOf(o).Success? ==> r.next == s.(members := s.members + [s.remoteId])
    ensures SdpOf(o).Success? ==>
      r.out == (if s.members == [] then [Notify(RemoteDescription(Frames.SessionDescription(Frames.OfferSdp, SdpOf(o).value)))] else [])
  {
    match SdpOf(o)
    case Failure(e) => Reject(s, e)
    case Success(d) =>
      var roster := s.members + [s.remoteId];
      Step(s.(members := roster),
           if |roster| == 1 then [Notify(RemoteDescription(Frames.SessionDescription(Frames.OfferSdp, d)))] else [])
  }

  /**
   * The "leave" branch as the source has it: it reads the first roster
   * entry unconditionally, so it is only defined on a non-empty roster
   * (an empty one throws IndexOutOfBoundsException on the executor thread).
   */
  function OnLeaveAsWritten(s: Client): (r: Step)
    requires |s.members| > 0
    ensures r.next == s
    ensures r.out == [] || r.out == [Notify(ChannelClose)]
    ensures r.out != [] <==> s.remoteId == s.members[0]
  {
    if s.remoteId == s.members[0] then Step(s, [Notify(ChannelClose)]) else Step(s, [])
  }

  /**
   * The "leave" branch, guarded: the listener is told the channel closed
   * when the sender is the first member; a leave on an empty roster is
   * ignored.
   */
  function OnLeave(s: Client): (r: Step)
    ensures r.next == s
    ensures r.out == [] || r.out == [Notify(ChannelClose)]
    ensures r.out != [] <==> |s.members| > 0 && s.remoteId == s.members[0]
    ensures |s.members| > 0 ==> r == OnLeaveAsWritten(s)
  {
    if |s.members| > 0 && s.remoteId == s.members[0] then Step(s, [Notify(ChannelClose)]) else Step(s, [])
  }

  /**
   * `optString("members")` and, when that is not empty, `new JSONArray(...)`:
   * an absent or empty field lists nobody.
   */
  function RosterOf(o: Json.Object): (r: Result<seq<Json.Value>, Json.Error>)
    ensures "members" !in o || o["members"] == Json.JString("") ==> r == Success([])
    ensures "members" in o && o["members"].JArray? ==> r == Success(o["members"].items)
    ensures "members" in o && !o["members"].JArray? && o["members"] != Json.JString("") ==>
      r == Failure(Json.WrongType("members"))
  {
    if "members" !in o then Success([])
    else match o["members"]
      case JString(t) => if t == "" then Success([]) else Failure(Json.WrongType("members"))
      case JArray(items) => Success(items)
      case _ => Failure(Json.WrongType("members"))
  }

  /** The ids of a list of JSON strings. */
  function Texts(items: seq<Json.Value>): (ids: seq<string>)
    requires forall i :: 0 <= i < |items| ==> items[i].JString?
  {
    seq(|items|, i requires 0 <= i < |items| => items[i].s)
  }

  /** The ids of `ids` other than `self`, in order. */
  function Others(ids: seq<string>, self: string): (r: seq<string>)
    ensures forall x :: x in r <==> x in ids && x != self
    ensures forall x :: multiset(r)[x] == if x == self then 0 else multiset(ids)[x]
    ensures |r| <= |ids|
  {
    if ids == [] then []
    else
      assert ids == [ids[0]] + ids[1..];
      (if ids[0] == self then [] else [ids[0]]) + Others(ids[1..], self)
  }

  /**
   * Filtering keeps the listed order: the ids of a concatenation are the
   * ids of each part, one after the other.
   */
  lemma {:induction false} OthersAppend(a: seq<string>, b: seq<string>, self: string)
    ensures Others(a + b, self) == Others(a, self) + Others(b, self)
    decreases |a|
  {
    if a == [] {
      assert a + b == b;
    } else {
      assert (a + b)[1..] == a[1..] + b;
      OthersAppend(a[1..], b, self);
      Seqs.Assoc(if a[0] == self then [] else [a[0]], Others(a[1..], self), Others(b, self));
    }
  }

  /** The roster after a login-ack, and the exception that cut it short, if any. */
  datatype Admitted = Admitted(roster: seq<string>, error: Option<Json.Error>)

  /**
   * The login-ack loop: every listed id other than the own client id is
   * appended to the roster, in order. An entry that is not a string stops
   * the loop, keeping what was appended before it.
   */
  function AddMembers(roster: seq<string>, items: seq<Json.Value>, self: string): (r: Admitted)
    ensures r.error.None? <==> forall i :: 0 <= i < |items| ==> items[i].JString?
    ensures r.error == None || r.error == Some(Json.WrongType("members"))
    ensures r.error.None? ==> r.roster == roster + Others(Texts(items), self)
    ensures roster <= r.roster
    ensures forall i :: |roster| <= i < |r.roster| ==> r.roster[i] != self
    decreases |items|
  {
    if items == [] then Admitted(roster, None)
    else if !items[0].JString? then Admitted(roster, Some(Json.WrongType("members")))
    else
      var id := items[0].s;
      var r := AddMembers(if id == self then roster else roster + [id], items[1..], self);
      TextsCons(items);
      OthersCons(id, if r.error.None? then Texts(items[1..]) else [], self);
      Seqs.Assoc(roster, [id], Others(if r.error.None? then Texts(items[1..]) else [], self));
      r
  }

  lemma TextsCons(items: seq<Json.Value>)
    requires items != []
    ensures (forall i :: 0 <= i < |items| ==> items[i].JString?) <==>
      items[0].JString? && forall i :: 0 <= i < |items[1..]| ==> items[1..][i].JString?
    ensures (forall i :: 0 <= i < |items| ==> items[i].JString?) ==>
      Texts(items) == [items[0].s] + Texts(items[1..])
  {
    assert forall i :: 1 <= i < |items| ==> items[i] == items[1..][i - 1];
  }

  lemma OthersCons(id: string, rest: seq<string>, self: string)
    ensures Others([id] + rest, self) == (if id == self then [] else [id]) + Others(rest, self)
  {
    assert ([id] + rest)[1..] == rest;
  }

  /**
   * A login-ack: the listed members join the roster, the room becomes
   * CONNECTED, and the listener learns whether this client came first,
   * which is so exactly when the roster is then empty.
   */
  function OnLoginAck(s: Client, o: Json.Object): (r: Step)
    ensures r.next.ws == s.ws && r.next.remoteId == s.remoteId && r.next.servers == s.servers
    ensures r.next.clientId == s.clientId && s.members <= r.next.members
    ensures RosterOf(o).Failure? ==> r == Step(s, [PostError(BadLoginAck(RosterOf(o).error))])
    ensures RosterOf(o).Success? && (forall i :: 0 <= i < |RosterOf(o).value| ==> RosterOf(o).value[i].JString?) ==>
      && r.next.members == s.members + Others(Texts(RosterOf(o).value), s.clientId)
      && r.next.room == Connected
      && r.out == [Notify(ConnectedToRoom(r.next.members == [], s.servers))]
    ensures RosterOf(o).Success? && !(forall i :: 0 <= i < |RosterOf(o).value| ==> RosterOf(o).value[i].JString?) ==>
      r.next.room == s.room && r.out == [PostError(BadLoginAck(Json.WrongType("members")))]
    ensures r.next.room == s.room || r.next.room == Connected
  {
    match RosterOf(o)
    case Failure(e) => Step(s, [PostError(BadLoginAck(e))])
    case Success(items) =>
      var admitted := AddMembers(s.members, items, s.clientId);
      match admitted.error
      case Some(e) => Step(s.(members := admitted.roster), [PostError(BadLoginAck(e))])
      case None =>
        var num := |admitted.roster|;
        Step(s.(members := admitted.roster, room := Connected), [Notify(ConnectedToRoom(num == 0, s.servers))])
  }

  /** The command of a frame, `optString("cmd")`. */
  function CommandOf(o: Json.Object): string {
    Json.OptString(o, "cmd")
  }

  /** The active remote id once the "from" field of `o` has been read. */
  function SenderAfter(remoteId: string, o: Json.Object): string {
    var from := Json.OptString(o, "from");
    if from != "" then from else remoteId
  }

  /** The branch on a non-empty command, after the remote id was updated. */
  function OnCommand(s: Client, command: string, p: Json.Payload): (r: Step)
    requires p.Parsed?
    ensures r.next.ws == s.ws && r.next.servers == s.servers && r.next.clientId == s.clientId
    ensures r.next.remoteId == s.remoteId && s.members <= r.next.members
    ensures r.next.room == s.room || (command == "loginack" && r.next.room == Connected)
    ensures command !in Commands ==> r == Step(s, [PostError(UnexpectedMessage(p))])
    ensures command == "browser" ==> r == Step(s, [])
    ensures command == "ice" ==> IceHandled(s, p.obj, r)
    ensures command == "remove-candidates" ==> RemovalHandled(s, p.obj, r)
    ensures command == "answer" ==> AnswerHandled(s, p.obj, r)
  {
    var o := p.obj;
    if command == "ice" then OnIce(s, o)
    else if command == "remove-candidates" then OnRemoveCandidates(s, o)
    else if command == "answer" then OnAnswer(s, o)
    else if command == "offer" then OnOffer(s, o)
    else if command == "leave" then OnLeave(s)
    else if command == "loginack" then OnLoginAck(s, o)
    else if command == "browser" then Step(s, [])
    else Step(s, [PostError(UnexpectedMessage(p))])
  }

  /**
   * `onWebSocketMessage`. Nothing happens unless the channel is
   * REGISTERED. A non-empty "from" then replaces the active remote id,
   * whatever becomes of the rest of the frame. A frame without a command is
   * an error: the server's, when it carries a non-empty "error" field.
   */
  function OnMessage(s: Client, p: Json.Payload): (r: Step)
    ensures s.ws.state != Channel.Registered ==> r == Step(s, [])
    ensures r.next.ws == s.ws && r.next.servers == s.servers && r.next.clientId == s.clientId
    ensures s.members <= r.next.members
    ensures s.ws.state == Channel.Registered && p.Unparsable? ==> r == Step(s, [PostError(BadFrame(Json.NotJson))])
    ensures s.ws.state == Channel.Registered && p.Parsed? ==> r.next.remoteId == SenderAfter(s.remoteId, p.obj)
    ensures s.ws.state == Channel.Registered && p.Parsed? && CommandOf(p.obj) == "" ==>
      var text := Json.OptString(p.obj, "error");
      r.out == [PostError(if text != "" then ServerError(text) else UnexpectedMessage(p))]
    ensures s.ws.state == Channel.Registered && p.Parsed? && CommandOf(p.obj) != "" && CommandOf(p.obj) !in Commands ==>
      r.out == [PostError(UnexpectedMessage(p))]
    ensures r.next.room == s.room || (p.Parsed? && CommandOf(p.obj) == "loginack" && r.next.room == Connected)
    ensures forall i :: 0 <= i < |r.out| ==> !ErrorNotice(r.out[i]) && !r.out[i].Wire?
  {
    if s.ws.state != Channel.Registered then Step(s, [])
    else match p
      case Unparsable => Step(s, [PostError(BadFrame(Json.NotJson))])
      case Parsed(o) =>
        var command := CommandOf(o);
        var s' := s.(remoteId := SenderAfter(s.remoteId, o));
        if command != "" then OnCommand(s', command, p)
        else
          var text := Json.OptString(o, "error");
          Step(s', [PostError(if text != "" then ServerError(text) else UnexpectedMessage(p))])
  }

  // ------------------------------------------------------------------
  // The channel's callbacks into the session

  /** Channel outputs the session passes on untouched. */
  predicate IsWire(o: Channel.Out) {
    o.Open? || o.Transmit? || o.Shutdown? || o.PostError?
  }

  /**
   * The session's side of one channel output: a delivered message is
   * dispatched, a close is passed to the listener, a channel error is
   * reported at room level; everything else goes on the wire.
   */
  function React(s: Client, o: Channel.Out): Step {
    match o
    case Deliver(p) => OnMessage(s, p)
    case NotifyClose => Step(s, [Notify(ChannelClose)])
    case NotifyError(f) => Step(s, [PostError(SocketError(f))])
    case _ => Step(s, [Wire(o)])
  }

  /** The session's reaction to each output of a channel transition, in order. */
  function Absorb(s: Client, outs: seq<Channel.Out>): (r: Step)
    ensures (forall i :: 0 <= i < |outs| ==> IsWire(outs[i])) ==> r == Step(s, Lift(outs))
    ensures forall i :: 0 <= i < |r.out| ==> !ErrorNotice(r.out[i])
    decreases |outs|
  {
    if outs == [] then Step(s, [])
    else
      var first := React(s, outs[0]);
      var rest := Absorb(first.next, outs[1..]);
      assert Lift(outs) == [Wire(outs[0])] + Lift(outs[1..]);
      Step(rest.next, first.out + rest.out)
  }

  /** A channel transition, followed by the session's reaction to what it emitted. */
  function Drive(s: Client, step: Channel.Step): Step {
    Absorb(s.(ws := step.next), step.out)
  }

  /** `connect()`'s task: the channel connects to the configured endpoint. */
  function ConnectSocket(s: Client, outcome: Channel.ConnectOutcome): (r: Step)
    ensures r.next.ws.state == s.ws.state && r.next.room == s.room
    ensures s.ws.state != Channel.New ==> r.out == []
    ensures s.ws.state == Channel.New && outcome.Started? ==> r.out == [Wire(Channel.Open(s.wsUrl))]
    ensures r.next == s.(ws := if s.ws.state == Channel.New then s.ws.(url := s.wsUrl) else s.ws)
  {
    Drive(s, Channel.Connect(s.ws, s.wsUrl, outcome))
  }

  /** The socket opened: the channel registers with the ids it was built with and flushes its backlog. */
  function OnSocketOpen(s: Client): (r: Step)
    ensures r.next.ws.state == Channel.Registered && r.next.ws.backlog == []
    ensures r.next.room == s.room && r.next.members == s.members
    ensures r.next == s.(ws := s.ws.(state := Channel.Registered, backlog := []))
    ensures r.out == Lift([Channel.Transmit(Frames.Register(s.ws.roomId, s.ws.clientId))] + Channel.Transmits(s.ws.backlog))
  {
    Drive(s, Channel.OnOpen(s.ws))
  }

  /**
   * The socket closed: the listener hears `onChannelClose` only when the
   * channel was not CLOSED already. The room state is left as it was.
   */
  function OnSocketClose(s: Client): (r: Step)
    ensures r.next.ws.state == Channel.Closed
    ensures r.next.room == s.room && r.next.members == s.members
    ensures r.out == (if s.ws.state == Channel.Closed then [] else [Notify(ChannelClose)])
    ensures r.next == s.(ws := if s.ws.state == Channel.Closed then s.ws else s.ws.(state := Channel.Closed))
  {
    Drive(s, Channel.OnClose(s.ws))
  }

  /**
   * A text frame arrived: the channel forwards it while CONNECTED or
   * REGISTERED, and the session acts on it only while REGISTERED.
   */
  function OnSocketText(s: Client, payload: Option<Json.Payload>): (r: Step)
    ensures payload.Some? && s.ws.state == Channel.Registered ==> r == OnMessage(s, payload.value)
    ensures !(payload.Some? && s.ws.state == Channel.Registered) ==> r == Step(s, [])
  {
    Drive(s, Channel.OnText(s.ws, payload))
  }

  /** The channel's posted error task ran: a first channel error becomes a room-level error report. */
  function RunChannelError(s: Client, fault: Channel.Fault): (r: Step)
    ensures r.next.ws.state == Channel.Error && r.next.room == s.room
    ensures r.out == (if s.ws.state == Channel.Error then [] else [PostError(SocketError(fault))])
    ensures r.next == s.(ws := if s.ws.state == Channel.Error then s.ws else s.ws.(state := Channel.Error))
  {
    Drive(s, Channel.ReportError(s.ws, fault))
  }

  /** Everything that drives a session: calls from the application, socket callbacks, posted tasks. */
  datatype Event =
    | Connecting(outcome: Channel.ConnectOutcome)
    | Offering(description: string)
    | Answering(description: string)
    | SendingCandidate(candidate: Candidates.IceCandidate)
    | RemovingCandidates(candidates: seq<Candidates.IceCandidate>)
    | Leaving
    | SocketOpened
    | SocketClosed
    | TextReceived(payload: Option<Json.Payload>)
    | ChannelErrorTask(channelFault: Channel.Fault)
    | RoomErrorTask(fault: Fault)

  function Apply(s: Client, e: Event): Step {
    match e
    case Connecting(outcome) => ConnectSocket(s, outcome)
    case Offering(d) => SendOfferSdp(s, d)
    case Answering(d) => SendAnswerSdp(s, d)
    case SendingCandidate(c) => SendLocalIceCandidate(s, c)
    case RemovingCandidates(cs) => SendLocalIceCandidateRemovals(s, cs)
    case Leaving => DisconnectFromRoom(s)
    case SocketOpened => OnSocketOpen(s)
    case SocketClosed => OnSocketClose(s)
    case TextReceived(p) => OnSocketText(s, p)
    case ChannelErrorTask(f) => RunChannelError(s, f)
    case RoomErrorTask(f) => ReportError(s, f)
  }

  /** The events of `es` executed one after another on the serial executor. */
  function Run(s: Client, es: seq<Event>): Step
    decreases |es|
  {
    if es == [] then Step(s, [])
    else
      var first := Apply(s, es[0]);
      var rest := Run(first.next, es[1..]);
      Step(rest.next, first.out + rest.out)
  }
}

=== FILE: session_traces.dfy ===
/**
 * Properties of WebSocketRTCClient: how inbound frames built by a peer's
 * own builders are dispatched, the roster and first-in rules, the
 * at-most-once room error, and the connect-to-login scenarios.
 */
module SessionTraces {
  import opened Wrappers
  import opened Json
  import Candidates
  import Frames
  import Channel
  import Seqs
  import opened Session

  lemma {:induction false} RunAppend(s: Client, a: seq<Event>, b: seq<Event>)
    ensures Run(s, a + b) ==
      var first := Run(s, a);
      var rest := Run(first.next, b);
      Step(rest.next, first.out + rest.out)
    decreases |a|
  {
    if a == [] {
      assert a + b == b;
    } else {
      var head := Apply(s, a[0]);
      Seqs.ConsAppend(a, b);
      RunAppend(head.next, a[1..], b);
      var tail := Run(head.next, a[1..]);
      Seqs.Assoc(head.out, tail.out, Run(tail.next, b).out);
    }
  }

  lemma RunOne(s: Client, e: Event)
    ensures Run(s, [e]) == Apply(s, e)
  {
    assert [e][1..] == [];
    assert Run(Apply(s, e).next, []) == Step(Apply(s, e).next, []);
    assert Apply(s, e).out + [] == Apply(s, e).out;
  }

  /** Running `es` and then one more event. */
  lemma RunSnoc(s: Client, es: seq<Event>, e: Event)
    ensures Run(s, es + [e]) ==
      var first := Run(s, es);
      var last := Apply(first.next, e);
      Step(last.next, first.out + last.out)
  {
    RunAppend(s, es, [e]);
    RunOne(Run(s, es).next, e);
  }

  // ------------------------------------------------------------------
  // What a peer receives from the relay

  /** A registered peer receiving an ICE frame built by `sendLocalIceCandidate` learns that candidate. */
  lemma RelayedIceIsDelivered(s: Client, c: Candidates.IceCandidate, to: string, from: string)
    requires s.ws.state == Channel.Registered && from != ""
    ensures OnMessage(s, Parsed(Frames.Relay(Frames.Encode(Frames.Ice(c, to)), from)))
      == Step(s.(remoteId := from), [Notify(RemoteIceCandidate(c))])
  {
    var o := Frames.Relay(Frames.Encode(Frames.Ice(c, to)), from);
    assert CommandOf(o) == "ice";
    Candidates.RoundTrip(c);
    assert IceOf(o) == Success(c);
  }

  /** A registered peer receiving an answer built by `sendAnswerSdp` learns that description. */
  lemma RelayedAnswerIsDelivered(s: Client, d: string, to: string, from: string)
    requires s.ws.state == Channel.Registered && from != ""
    ensures OnMessage(s, Parsed(Frames.Relay(Frames.Encode(Frames.Answer(d, to)), from)))
      == Step(s.(remoteId := from), [Notify(RemoteDescription(Frames.SessionDescription(Frames.AnswerSdp, d)))])
  {
    var o := Frames.Relay(Frames.Encode(Frames.Answer(d, to)), from);
    assert CommandOf(o) == "answer";
    assert SdpOf(o) == Success(d);
  }

  /**
   * A registered peer receiving an offer: the sender joins the roster and
   * becomes the active remote id; the offer is forwarded exactly when the
   * roster was empty, so a second offerer is never forwarded.
   */
  lemma RelayedOfferJoinsRoster(s: Client, d: string, to: string, from: string)
    requires s.ws.state == Channel.Registered && from != ""
    ensures
      var r := OnMessage(s, Parsed(Frames.Relay(Frames.Encode(Frames.Offer(d, to)), from)));
      && r.next == s.(remoteId := from, members := s.members + [from])
      && r.out == (if s.members == [] then [Notify(RemoteDescription(Frames.SessionDescription(Frames.OfferSdp, d)))] else [])
  {
    var o := Frames.Relay(Frames.Encode(Frames.Offer(d, to)), from);
    assert CommandOf(o) == "offer";
    assert SdpOf(o) == Success(d);
  }

  /** With the removal frame tagged under "cmd", a registered peer learns exactly the removed candidates. */
  lemma RelayedRemovalIsDelivered(s: Client, cs: seq<Candidates.IceCandidate>, from: string)
    requires s.ws.state == Channel.Registered && from != ""
    ensures OnMessage(s, Parsed(Frames.Relay(Frames.Encode(Frames.RemoveCandidates(cs)), from)))
      == Step(s.(remoteId := from), [Notify(RemoteIceCandidatesRemoved(cs))])
  {
    var o := Frames.Relay(Frames.Encode(Frames.RemoveCandidates(cs)), from);
    assert CommandOf(o) == "remove-candidates";
    Candidates.ListRoundTrip(cs);
    assert RemovalsOf(o) == Success(cs);
  }

  /** The inbound "leave" frame. */
  function LeaveFrame(from: string): Object {
    map["cmd" := JString("leave"), "from" := JString(from)]
  }

  /**
   * A leave tells the listener the channel closed exactly when the sender
   * is the first member; on an empty roster it is ignored.
   */
  lemma LeaveClosesIffFirstMember(s: Client, from: string)
    requires s.ws.state == Channel.Registered && from != ""
    ensures OnMessage(s, Parsed(LeaveFrame(from))).next == s.(remoteId := from)
    ensures OnMessage(s, Parsed(LeaveFrame(from))).out ==
      (if |s.members| > 0 && s.members[0] == from then [Notify(ChannelClose)] else [])
  {
    assert CommandOf(LeaveFrame(from)) == "leave";
  }

  // ------------------------------------------------------------------
  // Login-ack and first-in

  /** The inbound "loginack" frame listing `ids`. */
  function LoginAck(ids: seq<string>): Object {
    map["cmd" := JString("loginack"), "members" := JArray(seq(|ids|, i requires 0 <= i < |ids| => JString(ids[i])))]
  }

  /**
   * A login-ack appends every listed id but the client's own to the
   * roster, connects the room, and reports first-in exactly when the
   * roster is then empty.
   */
  lemma LoginAckConnects(s: Client, ids: seq<string>)
    requires s.ws.state == Channel.Registered
    ensures
      var r := OnMessage(s, Parsed(LoginAck(ids)));
      && r.next == s.(members := s.members + Others(ids, s.clientId), room := Connected)
      && r.out == [Notify(ConnectedToRoom(s.members + Others(ids, s.clientId) == [], s.servers))]
  {
    var o := LoginAck(ids);
    assert CommandOf(o) == "loginack";
    var items := o["members"].items;
    assert RosterOf(o) == Success(items);
    assert forall i :: 0 <= i < |items| ==> items[i].JString?;
    assert Texts(items) == ids;
    assert s.(remoteId := SenderAfter(s.remoteId, o)) == s;
    assert OnMessage(s, Parsed(o)) == OnCommand(s, "loginack", Parsed(o));
  }

  /**
   * Into an empty roster, a login-ack makes this client the first in
   * exactly when no id other than its own is listed.
   */
  lemma FirstInIffAlone(s: Client, ids: seq<string>)
    requires s.ws.state == Channel.Registered && s.members == []
    ensures OnMessage(s, Parsed(LoginAck(ids))).out ==
      [Notify(ConnectedToRoom(forall i :: 0 <= i < |ids| ==> ids[i] == s.clientId, s.servers))]
  {
    LoginAckConnects(s, ids);
    assert [] + Others(ids, s.clientId) == Others(ids, s.clientId);
    NobodyElse(ids, s.clientId);
  }

  /** Filtering out `self` leaves nothing exactly when every id is `self`. */
  lemma NobodyElse(ids: seq<string>, self: string)
    ensures Others(ids, self) == [] <==> forall i :: 0 <= i < |ids| ==> ids[i] == self
  {
    var others := Others(ids, self);
    if others != [] {
      assert others[0] in others;
    } else {
      forall i | 0 <= i < |ids| ensures ids[i] == self {
        assert ids[i] in ids;
        assert ids[i] !in others;
      }
    }
  }

  // ------------------------------------------------------------------
  // Room-level errors

  /** How many errors `out` reports to the listener. */
  function ErrorNotices(out: seq<Out>): nat {
    Seqs.Count(out, ErrorNotice)
  }

  /**
   * The events that can move the room out of ERROR: leaving the room, and
   * an inbound login-ack. Every other inbound frame, malformed or not,
   * leaves the room state as it was.
   */
  predicate LeavesRoomError(e: Event) {
    || e.Leaving?
    || (e.TextReceived? && e.payload.Some? && e.payload.value.Parsed? && CommandOf(e.payload.value.obj) == "loginack")
  }

  /** Inbound text other than a login-ack never moves the room. */
  lemma TextKeepsRoom(s: Client, p: Option<Payload>)
    requires !(p.Some? && p.value.Parsed? && CommandOf(p.value.obj) == "loginack")
    ensures OnSocketText(s, p).next.room == s.room
  {
    if p.Some? && s.ws.state == Channel.Registered {
      assert OnSocketText(s, p) == OnMessage(s, p.value);
    }
  }

  /** Only the posted room-error task, run outside ERROR, reports an error to the listener. */
  lemma ApplyErrorNotices(s: Client, e: Event)
    ensures ErrorNotices(Apply(s, e).out) == (if e.RoomErrorTask? && s.room != Session.Error then 1 else 0)
    ensures !LeavesRoomError(e) && s.room == Session.Error ==> Apply(s, e).next.room == Session.Error
    ensures e.RoomErrorTask? ==> Apply(s, e).next.room == Session.Error
  {
    var out := Apply(s, e).out;
    if e.RoomErrorTask? {
      if s.room != Session.Error {
        assert out == [Notify(ChannelError(e.fault))];
        Seqs.CountOne(Notify(ChannelError(e.fault)), ErrorNotice);
      }
    } else {
      assert forall i :: 0 <= i < |out| ==> !ErrorNotice(out[i]);
      Seqs.CountNone(out, ErrorNotice);
    }
    if e.TextReceived? && !LeavesRoomError(e) {
      TextKeepsRoom(s, e.payload);
    }
  }

  /** A run's error notices are those of its first event plus those of the rest. */
  lemma NoticesSplit(s: Client, es: seq<Event>)
    requires es != []
    ensures
      var first := Apply(s, es[0]);
      var rest := Run(first.next, es[1..]);
      && Run(s, es).next == rest.next
      && ErrorNotices(Run(s, es).out) == ErrorNotices(first.out) + ErrorNotices(rest.out)
  {
    var first := Apply(s, es[0]);
    var rest := Run(first.next, es[1..]);
    assert Run(s, es) == Step(rest.next, first.out + rest.out);
    Seqs.CountAppend(first.out, rest.out, ErrorNotice);
  }

  /**
   * ERROR absorbs every event but leaving and a login-ack, inbound frames
   * that fault included: the room stays in ERROR and the listener hears of
   * no further error.
   */
  lemma {:induction false} RoomErrorIsAbsorbing(s: Client, es: seq<Event>)
    requires s.room == Session.Error
    requires forall i :: 0 <= i < |es| ==> !LeavesRoomError(es[i])
    ensures Run(s, es).next.room == Session.Error
    ensures ErrorNotices(Run(s, es).out) == 0
    decreases |es|
  {
    if es != [] {
      var first := Apply(s, es[0]);
      NoticesSplit(s, es);
      assert forall i :: 0 <= i < |es[1..]| ==> !LeavesRoomError(es[1..][i]);
      ApplyErrorNotices(s, es[0]);
      RoomErrorIsAbsorbing(first.next, es[1..]);
    }
  }

  /**
   * Short of leaving the room or a login-ack, however many errors are
   * posted, and whatever frames arrive, the listener hears of at most one.
   */
  lemma {:induction false} RoomErrorNotifiedAtMostOnce(s: Client, es: seq<Event>)
    requires forall i :: 0 <= i < |es| ==> !LeavesRoomError(es[i])
    ensures ErrorNotices(Run(s, es).out) <= 1
    decreases |es|
  {
    if es != [] {
      var first := Apply(s, es[0]);
      NoticesSplit(s, es);
      assert forall i :: 0 <= i < |es[1..]| ==> !LeavesRoomError(es[1..][i]);
      ApplyErrorNotices(s, es[0]);
      if ErrorNotices(first.out) == 1 {
        RoomErrorIsAbsorbing(first.next, es[1..]);
      } else {
        RoomErrorNotifiedAtMostOnce(first.next, es[1..]);
      }
    }
  }

  /**
   * Leaving a registered room says bye and closes the socket; the close
   * callback that follows finds the channel CLOSED and stays silent, so
   * the listener is not told of a close it asked for.
   */
  lemma LeaveRoomIsQuiet(s: Client)
    requires s.ws.state == Channel.Registered
    ensures Run(s, [Leaving, SocketClosed]).out == [Wire(Channel.Transmit(Frames.Bye)), Wire(Channel.Shutdown)]
    ensures Run(s, [Leaving, SocketClosed]).next.room == Session.Closed
    ensures Run(s, [Leaving, SocketClosed]).next.ws.state == Channel.Closed
  {
    var left := DisconnectFromRoom(s);
    RunSnoc(s, [Leaving], SocketClosed);
    assert [Leaving] + [SocketClosed] == [Leaving, SocketClosed];
    RunOne(s, Leaving);
    assert OnSocketClose(left.next).out == [];
  }

  // ------------------------------------------------------------------
  // Scenarios

  /** Connect, socket open (automatic registration), then a login-ack listing `ids`. */
  function Login(ids: seq<string>): seq<Event> {
    [Connecting(Channel.Started), SocketOpened, TextReceived(Some(Parsed(LoginAck(ids))))]
  }

  /** The session after connecting and registering, before any frame arrives. */
  lemma Registers(roomId: string, me: string, url: string, servers: seq<IceServer>) returns (s: Client)
    ensures s == Run(Create(roomId, me, url, servers), [Connecting(Channel.Started), SocketOpened]).next
    ensures Run(Create(roomId, me, url, servers), [Connecting(Channel.Started), SocketOpened]).out
      == [Wire(Channel.Open(url)), Wire(Channel.Transmit(Frames.Register(roomId, me)))]
    ensures s.ws.state == Channel.Registered && s.room == Session.New && s.members == []
    ensures s.clientId == me && s.servers == servers && s.remoteId == ""
  {
    var s0 := Create(roomId, me, url, servers);
    RunAppend(s0, [Connecting(Channel.Started)], [SocketOpened]);
    assert [Connecting(Channel.Started)] + [SocketOpened] == [Connecting(Channel.Started), SocketOpened];
    RunOne(s0, Connecting(Channel.Started));
    var s1 := ConnectSocket(s0, Channel.Started);
    RunOne(s1.next, SocketOpened);
    var s2 := OnSocketOpen(s1.next);
    assert s1.next.ws.backlog == [];
    assert Channel.Transmits([]) == [];
    assert Lift([Channel.Transmit(Frames.Register(roomId, me))]) == [Wire(Channel.Transmit(Frames.Register(roomId, me)))];
    s := s2.next;
  }

  /** A registered client hands every received payload to the dispatcher. */
  lemma TextDispatches(s: Client, p: Payload)
    requires s.ws.state == Channel.Registered
    ensures Apply(s, TextReceived(Some(p))) == OnMessage(s, p)
  {
  }

  /** The login run from any client is its registration prefix, then the login-ack. */
  lemma LoginSplits(s0: Client, ids: seq<string>)
    ensures Run(s0, Login(ids)) ==
      var first := Run(s0, [Connecting(Channel.Started), SocketOpened]);
      var last := Apply(first.next, TextReceived(Some(Parsed(LoginAck(ids)))));
      Step(last.next, first.out + last.out)
  {
    var prefix := [Connecting(Channel.Started), SocketOpened];
    assert Login(ids) == prefix + [TextReceived(Some(Parsed(LoginAck(ids))))];
    RunSnoc(s0, prefix, TextReceived(Some(Parsed(LoginAck(ids)))));
  }

  /** The login run is the registration prefix followed by the login-ack's dispatch. */
  lemma LoginRun(roomId: string, me: string, url: string, servers: seq<IceServer>, ids: seq<string>) returns (s: Client)
    ensures s.ws.state == Channel.Registered && s.members == [] && s.clientId == me && s.servers == servers
    ensures Run(Create(roomId, me, url, servers), Login(ids)) ==
      var ack := OnMessage(s, Parsed(LoginAck(ids)));
      Step(ack.next, [Wire(Channel.Open(url)), Wire(Channel.Transmit(Frames.Register(roomId, me)))] + ack.out)
  {
    s := Registers(roomId, me, url, servers);
    LoginSplits(Create(roomId, me, url, servers), ids);
    TextDispatches(s, Parsed(LoginAck(ids)));
  }

  /**
   * Connect, open, register, then a login-ack: the room is CONNECTED, the
   * roster holds the listed ids other than the client's own, and the
   * listener is told whether the client is first in together with the
   * server list.
   */
  lemma LoginScenario(roomId: string, me: string, url: string, servers: seq<IceServer>, ids: seq<string>)
    ensures
      var r := Run(Create(roomId, me, url, servers), Login(ids));
      && r.next.room == Session.Connected
      && r.next.members == Others(ids, me)
      && r.out == [Wire(Channel.Open(url)), Wire(Channel.Transmit(Frames.Register(roomId, me))),
                   Notify(ConnectedToRoom(Others(ids, me) == [], servers))]
  {
    var s := LoginRun(roomId, me, url, servers, ids);
    LoginAckConnects(s, ids);
    assert [] + Others(ids, me) == Others(ids, me);
  }

  /** Alone in the room: first in, empty roster. */
  lemma FirstInScenario(roomId: string, me: string, url: string, servers: seq<IceServer>)
    ensures Notify(ConnectedToRoom(true, servers)) in Run(Create(roomId, me, url, servers), Login([])).out
    ensures Run(Create(roomId, me, url, servers), Login([])).next.members == []
  {
    LoginScenario(roomId, me, url, servers, []);
  }

  /** Joining "peer1": not first in, and "peer1" is the roster. */
  lemma SecondInScenario(roomId: string, me: string, url: string, servers: seq<IceServer>)
    requires me != "peer1"
    ensures Notify(ConnectedToRoom(false, servers)) in Run(Create(roomId, me, url, servers), Login([me, "peer1"])).out
    ensures Run(Create(roomId, me, url, servers), Login([me, "peer1"])).next.members == ["peer1"]
  {
    LoginScenario(roomId, me, url, servers, [me, "peer1"]);
    assert [me, "peer1"][1..] == ["peer1"];
    assert ["peer1"][1..] == [];
  }
}

=== FILE: wrappers.dfy ===
/**
 * Failure-compatible wrappers shared by the model: `Option` for Java's
 * nullable references and `Result` for calls that may throw.
 */
module Wrappers {

  datatype Option<+T> = None | Some(value: T)

  /** Success carries the value; Failure carries why the call threw. */
  datatype Result<+T, +E> = Success(value: T) | Failure(error: E) {

    predicate IsFailure() {
      Failure?
    }

    function PropagateFailure<U>(): Result<U, E>
      requires Failure?
    {
      Failure(error)
    }

    function Extract(): T
      requires Success?
    {
      value
    }
  }
}
